=== FILE: README.md ===
# Ndiwanjo Construction back office, modelled in Dafny

The system is a small back office for a construction company. A React client has one list view per entity:
employees, customers, projects, inventory and expenses. A reports page exports all five collections as PDF
and as a spreadsheet. An express server keeps one table per entity in a database. It also keeps an activity
log that three of its create routes append to.

This project models the logic behind those screens and routes as pure functions over sequences of records:

- **Client list logic.** Each view's search filter, its submit guards, its edit and cancel transitions, and its
  derived values: expense totals, inventory line value, the low-stock flag and the project status badge.
- **Report shaping.** The five reports' columns and rows, their fixed export order, the full PDF's page-break
  rule (the end of each drawn table is an input), the workbook's sheet names, and the two expense sums.
- **The server as an abstract store.** Per-entity tables and an append-only activity log. The create routes
  and their activity side effects, delete by id, newest-first listing, the ten-entry activity feed, the
  register and login decisions, and the routing table.

Modules, one per file:

| module | file | what it holds |
|---|---|---|
| `Wrappers` | wrappers.dfy | `Option` (a JSON value that may be null) and `Result` |
| `Seqs` | seqs.dfy | order-keeping filter, subsequences, sums over a sequence |
| `Text` | text.dfy | ASCII lower-casing, `includes`, JavaScript `trim`, `split(sep)[0]` |
| `Records` | records.dfy | the stored rows of every entity, and JavaScript's numeric reading of null |
| `Views` | views.dfy | form values, the shared view state, and its submit, cancel, edit and load transitions |
| `Expenses`, `Projects`, `Employees`, `Customers`, `Inventory` | one file each | each client view |
| `Reports` | reports.dfy | the reports page |
| `Store` | store.dfy | tables, identifiers, delete, newest-first ordering, the activity cap |
| `Server` | server.dfy | routes over the database, register and login, routing |
| `Scenarios` | scenarios.dfy | properties that cross the client/server boundary |

Conventions that run through the model:

- **Nullable fields.** A record field that JSON may carry as `null` is an `Option`. JavaScript's numeric use of
  null (`Number(null)`, `sum + null`, `null < 10`) reads it as 0.
- **Form fields.** A form field is `Str`, `Number` or `Null`, because `handleEdit` copies raw record values
  into the form. Calling `trim()` on a non-text value throws a `TypeError`, and the submit then does nothing.
- **The `editingId` test.** `if (editingId)` is a truthiness test, so an id of 0 is not editing.
- **No update route.** The server's routes are list, create and delete only. The client views send `PUT` when
  saving an edit, and that request reaches no handler, so express answers 404 and nothing is stored. The
  server source has no update route for any entity, and `Server.Handler` has no `PUT` entry. `Scenarios.ExpenseEditSilentlyLost` shows the expenses view
  treating that 404 as success and dropping the edit. `Scenarios.EmployeeEditRefused` shows the employees view
  raising its alert instead.

## Model

| member | source | states |
|---|---|---|
| Seqs.Filter | client/src/components/Expenses.jsx:31-37 | `Array.prototype.filter`: the result has only elements of the input that pass, and every input element that passes is in it |
| Seqs.FilterIsSubsequence | client/src/components/Expenses.jsx:31 | a filtered list is a subsequence of its input: order kept, nothing added |
| Seqs.FilterCounts | client/src/components/Expenses.jsx:90 | filtering keeps every copy of an element that passes and drops every copy of one that fails |
| Seqs.SumAppend | client/src/components/Expenses.jsx:89 | the `reduce` sum over a concatenation is the sum of the two sums |
| Seqs.SumSplits | client/src/components/Expenses.jsx:89-90 | the sum over the elements that pass plus the sum over those that fail is the whole sum |
| Seqs.DisjointSumsBounded | client/src/components/Expenses.jsx:90-91 | two disjoint selections of non-negative terms sum to no more than the whole |
| Seqs.SumPermutation | server.js:96 | a sum does not depend on the order of the listing it is taken over |
| Seqs.FilterPermutation | server.js:96 | filtering two orderings of the same records selects the same records |
| Seqs.FilterAppend | server.js:100-102 | filtering a list with one more record at the end adds it at the end exactly when it passes |
| Text.Lower | client/src/components/Expenses.jsx:33 | `toLowerCase` (ASCII): same length, no upper-case letter left, every other character kept |
| Text.LowerIdempotent | client/src/components/Expenses.jsx:33 | lower-casing twice is lower-casing once |
| Text.ContainsIffOccurs | client/src/components/Expenses.jsx:33 | `includes` holds exactly when the needle occurs at some position |
| Text.Contains | client/src/components/Expenses.jsx:33 | `includes`: every text includes the empty search, and nothing longer than the text occurs in it |
| Text.TrimStart | client/src/components/Expenses.jsx:40 | `trim`'s left half removes exactly the leading whitespace |
| Text.TrimEnd | client/src/components/Expenses.jsx:40 | `trim`'s right half removes exactly the trailing whitespace |
| Text.BlankIffAllSpace | client/src/components/Expenses.jsx:40 | `!s.trim()` holds exactly when every character is whitespace |
| Text.PrefixBefore | client/src/components/Projects.jsx:68 | `split(sep)[0]` is the longest prefix without `sep`, and `sep` follows it when it is shorter |
| Text.PrefixBeforeJoin | client/src/components/Projects.jsx:68 | splitting `head + sep + tail` at the first `sep` gives back `head` when `head` has no `sep` |
| Views.VerbatimOccurrenceMatches | client/src/components/Expenses.jsx:33 | a field holding the search verbatim matches it |
| Views.SearchIgnoresCase | client/src/components/Expenses.jsx:33 | two searches that differ only in case match the same fields |
| Views.EmptySearchMatchesPresent | client/src/components/Expenses.jsx:33-34 | the empty search matches a field exactly when the field is not null (`?.` makes null fields fail) |
| Views.LowerSlice | client/src/components/Expenses.jsx:33 | lower-casing commutes with taking a slice |
| Views.OrEmpty | client/src/components/Employees.jsx:67-72 | `x \|\| ''` keeps a truthy value and turns every falsy one into the empty text |
| Views.FromText | client/src/components/Expenses.jsx:67 | a copied text field is text exactly when the record's field is not null |
| Views.FromNumber | client/src/components/Expenses.jsx:67 | a copied numeric field is a number exactly when the record's field is not null |
| Views.RequireText | client/src/components/Expenses.jsx:40 | the `trim` guard passes exactly for text with a non-space character, and throws exactly for non-text |
| Views.RequireTruthy | client/src/components/Expenses.jsx:41 | the `!x` guard passes exactly for truthy values and never throws |
| Views.RequestFor | client/src/components/Expenses.jsx:43-56 | a submit sends `PUT` to the edited id exactly when `editingId` is truthy, and `POST` otherwise, carrying the form |
| Views.Save | client/src/components/Expenses.jsx:42-63 | a failed save leaves the view as it was and raises the failure alert; a successful one empties and hides the form, clears `editingId` after an update, and re-fetches |
| Views.Stopped | client/src/components/Expenses.jsx:40-41 | a refused guard alerts and sends nothing; a thrown guard does neither |
| Views.Cancel | client/src/components/Expenses.jsx:83-87 | cancel hides the form, clears `editingId` and resets the fields |
| Views.Edit | client/src/components/Expenses.jsx:66-70 | edit fills the form, records the id and shows the form |
| Views.CancelUndoesEdit | client/src/components/Expenses.jsx:66-87 | cancelling after an edit gives the same state as cancelling without it |
| Views.SavedUpdateIsCancel | client/src/components/Expenses.jsx:43-58 | a successful update ends in the same view state as a cancel |
| Views.Load | client/src/components/Expenses.jsx:15-29 | the fetch pattern the expenses, projects, employees and customers views share (the inventory view's differs, see `Inventory.LoadItems`): a fetched array is shown as is; a non-array shows an empty list; a failed fetch shows an empty list and the connection banner |
| Expenses.Filtered | client/src/components/Expenses.jsx:31-37 | a subsequence of the expenses holding exactly those whose title or project name contains the search and whose category passes the filter, each as many times as it appears in the input |
| Expenses.UntitledNeverShown | client/src/components/Expenses.jsx:33-34 | an expense with neither title nor project name is never listed, whatever the search |
| Expenses.EmptySearchShowsNamed | client/src/components/Expenses.jsx:32-35 | with an empty search and "all", an expense is listed exactly when it has a title or a project name |
| Expenses.Total | client/src/components/Expenses.jsx:89 | the total card: never negative when no amount is |
| Expenses.CategorySum | client/src/components/Expenses.jsx:90-91 | a category's sum is 0 when no expense is in the category, and with non-negative amounts it lies between 0 and the total |
| Expenses.Pending | client/src/components/Expenses.jsx:90 | the pending card: 0 when nothing is pending; with non-negative amounts, between 0 and the total |
| Expenses.Paid | client/src/components/Expenses.jsx:91 | the paid card: 0 when nothing is paid; with non-negative amounts, between 0 and the total |
| Expenses.NoExpensesNoTotals | client/src/components/Expenses.jsx:89-91 | with no expenses, all three cards show 0 |
| Expenses.PendingPlusPaidWithinTotal | client/src/components/Expenses.jsx:89-91 | with non-negative amounts, pending plus paid is at most the total |
| Expenses.TotalSplitsAtPending | client/src/components/Expenses.jsx:89-90 | the total is the pending sum plus the sum of every other expense |
| Expenses.Render | client/src/components/Expenses.jsx:89-98 | the shown list never outnumbers the whole, and the cards are the three sums over the whole list |
| Expenses.CardsIgnoreFilter | client/src/components/Expenses.jsx:89-91 | changing the search or the category filter never changes a card |
| Expenses.Submit | client/src/components/Expenses.jsx:39-64 | sends exactly when the title is non-blank text and the amount is truthy; a blank title alerts "Expense title is required."; a non-blank title with a falsy amount alerts "Amount is required."; a title that is not text throws in `trim`, so nothing is sent and nothing alerts; any HTTP response counts as success and clears the form with no alert; a network failure alerts, keeps the form and does not re-fetch |
| Expenses.EditForm | client/src/components/Expenses.jsx:67 | the four fields are copied as they are |
| Expenses.StartEdit | client/src/components/Expenses.jsx:66-70 | edit fills the form from the record and records its id |
| Expenses.CancelForm | client/src/components/Expenses.jsx:83-87 | cancel leaves four empty fields and no `editingId` |
| Expenses.ZeroAmountRefusedAfterEdit | client/src/components/Expenses.jsx:41 | an expense whose amount is 0 cannot be re-saved: the amount guard refuses it |
| Projects.Filtered | client/src/components/Projects.jsx:31-37 | a subsequence of the projects holding exactly those whose name or description contains the search and whose status passes, each as many times as it appears in the input |
| Projects.StatusFilterIsExact | client/src/components/Projects.jsx:35 | under a status filter other than "all", every listed project has exactly that status |
| Projects.StatusBadge | client/src/components/Projects.jsx:199-203 | green exactly for "completed", blue exactly for "active", yellow for everything else |
| Projects.Submit | client/src/components/Projects.jsx:39-63 | sends exactly when the name is non-blank text; a blank name alerts; a name that is not text throws in `trim`, with no alert; any HTTP response resets the form with no alert; a network failure alerts, keeps the form and does not re-fetch |
| Projects.DateField | client/src/components/Projects.jsx:68-69 | the date part before "T" of a present date, and the empty text otherwise |
| Projects.DateFieldOfTimestamp | client/src/components/Projects.jsx:68 | a timestamp `date` "T" `time` puts exactly `date` into the form |
| Projects.EditForm | client/src/components/Projects.jsx:66-70 | name, description and status copied, both dates cut to their date part |
| Projects.StartEdit | client/src/components/Projects.jsx:65-73 | edit fills the form from the project and records its id |
| Projects.CancelForm | client/src/components/Projects.jsx:86-90 | cancel resets the fields with status "pending" and clears `editingId` |
| Employees.Filtered | client/src/components/Employees.jsx:30-35 | a subsequence of the employees holding exactly those whose name, email, role or department contains the search, each as many times as it appears in the input |
| Employees.PhoneAndSalaryNotSearched | client/src/components/Employees.jsx:30-35 | changing an employee's phone or salary never changes whether it is listed |
| Employees.Submit | client/src/components/Employees.jsx:37-63 | sends exactly when the name is non-blank text; a blank name alerts; a name that is not text throws in `trim`, with no alert; a non-2xx response or a network failure alerts and keeps the form; a 2xx one resets it with no alert |
| Employees.EditForm | client/src/components/Employees.jsx:66-73 | every field is copied with `\|\| ''` |
| Employees.StartEdit | client/src/components/Employees.jsx:65-77 | edit fills the form from the employee and records its id |
| Employees.ZeroSalaryEditsAsEmpty | client/src/components/Employees.jsx:72 | a salary of 0 edits as the empty text |
| Employees.EditedSubmitNeverThrows | client/src/components/Employees.jsx:38 | after an edit the name guard cannot throw: the submit either sends or alerts |
| Employees.CancelForm | client/src/components/Employees.jsx:91-95 | cancel leaves six empty fields and no `editingId` |
| Customers.Filtered | client/src/components/Customers.jsx:30-35 | a subsequence of the customers holding exactly those whose name, email, phone or address contains the search, so never more than the whole, each as many times as it appears in the input |
| Customers.Submit | client/src/components/Customers.jsx:37-61 | sends exactly when the name is non-blank text; a blank name alerts; a name that is not text throws in `trim`, with no alert; any HTTP response resets the form with no alert; a network failure alerts, keeps the form and does not re-fetch |
| Customers.StartEdit | client/src/components/Customers.jsx:63-67 | exactly the four fields are copied, and the id is recorded |
| Customers.NamelessEditSubmitsNothing | client/src/components/Customers.jsx:38 | editing a customer with a null name and submitting throws in `trim`: no request, no alert |
| Customers.CancelForm | client/src/components/Customers.jsx:80-84 | cancel leaves four empty fields and no `editingId` |
| Inventory.Filtered | client/src/components/Inventory.jsx:17-20 | a subsequence of the items holding exactly those whose name or unit contains the search, each as many times as it appears in the input |
| Inventory.LowStock | client/src/components/Inventory.jsx:135 | highlighted exactly when the quantity is below 10; a null quantity reads as 0 and is highlighted |
| Inventory.LineValue | client/src/components/Inventory.jsx:141 | quantity times price, and 0 when either is null |
| Inventory.Submit | client/src/components/Inventory.jsx:22-40 | always sends; never alerts; a failed fetch leaves the view as it was; any response resets the form |
| Inventory.StartEdit | client/src/components/Inventory.jsx:42-46 | the four fields are copied as they are, and the id is recorded |
| Inventory.CancelForm | client/src/components/Inventory.jsx:53-57 | cancel leaves four empty fields and no `editingId` |
| Inventory.LoadItems | client/src/components/Inventory.jsx:12-15 | a fetched body replaces the list; a failed fetch keeps the old list; a non-array body breaks the view |
| Reports.EmployeeRow | client/src/components/Reports.jsx:53-54 | six cells, as many as the columns; the first is the name, the last the salary in dollars |
| Reports.CustomerRow | client/src/components/Reports.jsx:61-62 | four cells, as many as the columns |
| Reports.DateCell | client/src/components/Reports.jsx:72-73 | a dash exactly when the date is missing or empty, and the local date otherwise |
| Reports.ProjectRow | client/src/components/Reports.jsx:69-74 | five cells; each date cell is a dash exactly when that date is absent |
| Reports.ItemRow | client/src/components/Reports.jsx:81-82 | five cells; the last is quantity times price to two places |
| Reports.ExpenseRow | client/src/components/Reports.jsx:89-93 | five cells; the project cell is a dash exactly when the project name is falsy; the last is the creation day |
| Reports.Rows | client/src/components/Reports.jsx:54 | `map`: one row per record, in collection order |
| Reports.MakeReport | client/src/components/Reports.jsx:47-95 | a report counts its records and has one row per record |
| Reports.AllReports | client/src/components/Reports.jsx:47-95 | five reports in the fixed order Employees, Customers, Projects, Inventory, Expenses, each counting its whole collection |
| Reports.RowsFitColumns | client/src/components/Reports.jsx:53-93 | every row of every report has exactly as many cells as the report has columns |
| Reports.ExpenseFigures | client/src/components/Reports.jsx:97-98 | the page's total and pending figures are the expenses view's two sums (a null amount adds 0 both ways); the total less the pending figure is the sum over the expenses that are not pending; with non-negative amounts the pending figure lies between 0 and the total, and it is 0 when nothing is pending |
| Reports.SheetName | client/src/components/Reports.jsx:135 | a sheet name is the title's first space-separated word |
| Reports.SheetOf | client/src/components/Reports.jsx:134-135 | a sheet holds the report's columns as header and its rows as body |
| Reports.Workbook | client/src/components/Reports.jsx:133-136 | one sheet per report, in report order |
| Reports.FullWorkbook | client/src/components/Reports.jsx:131-138 | the combined workbook has five sheets, one per report in the fixed order |
| Reports.SheetNameOfTitle | client/src/components/Reports.jsx:135 | a title `word` " Report" names its sheet `word` |
| Reports.WorkbookSheetName | client/src/components/Reports.jsx:135 | the sheets are named Employees, Customers, Projects, Inventory and Expenses |
| Reports.WorkbookSheetNamesDistinct | client/src/components/Reports.jsx:133-136 | no two sheets of the workbook share a name |
| Reports.SheetNamesDiffer | client/src/components/Reports.jsx:135 | the five sheet names are pairwise different |
| Reports.LayoutFullPdf | client/src/components/Reports.jsx:109-126 | the first title is at 48; each table starts 6 below its title; the next title is 12 below the table's end, or at 20 on a new page when that would pass 250; so no title is written below 250 |
| Reports.ExportFullPdf | client/src/components/Reports.jsx:100-129 | the full PDF has five sections in the fixed order, each drawing its own report's columns as header and its rows as body (as many as the collection holds); the first title is at 48, each table 6 below its title, each next title 12 below the previous table's end or at 20 on a new page when that would pass 250, so no title is below 250 |
| Store.Insert | server.js:38-41 | a created row takes the next identifier, goes last, and keeps the table's identifiers unique |
| Store.Without | server.js:43 | the rows other than the deleted one, in order; exactly one fewer when the identifier was present |
| Store.WithoutCount | server.js:43 | with unique identifiers, deleting a present identifier removes exactly one row, and an absent one removes none |
| Store.Delete | server.js:42-45 | delete fails exactly when no row has the identifier; otherwise exactly that row goes and every other row stays, in order |
| Store.InsertByTime | server.js:62 | inserting into a newest-first list keeps it newest first and adds exactly the one row |
| Store.NewerThanAll | server.js:62 | a row no older than everything after it can head a newest-first list |
| Store.ByNewest | server.js:62 | `orderBy: { createdAt: 'desc' }`: the same rows, newest first |
| Store.NewestComesFirst | server.js:62 | a row strictly newer than all others is listed first |
| Store.Recent | server.js:112-114 | `take: 10`: min(10, n) log entries, newest first, a sub-multiset of the log (no entry repeated beyond its copies there), and none left out is newer than one returned |
| Store.PrefixOfOrdered | server.js:113 | a prefix of a newest-first ordering is a sub-multiset of the log, and leaves out none newer than one it keeps |
| Server.Logged | server.js:69 | writing an activity appends exactly one entry and changes no other table |
| Server.CreateEmployee | server.js:38-41 | adds exactly one employee with the given fields and changes nothing else, the activity log included |
| Server.CreateCustomer | server.js:51-54 | adds exactly one customer with the given fields and changes nothing else, the activity log included |
| Server.CreateProject | server.js:64-71 | fails, writing nothing, exactly when a start or end date is not a valid date (the empty text the client's blank form sends never is); otherwise adds exactly one project and exactly one activity, "New project created", whose bold text is the project's name |
| Server.CreateItem | server.js:81-88 | adds exactly one item and exactly one activity, "New inventory item added", whose bold text is the item's name |
| Server.CreateExpense | server.js:98-105 | adds exactly one expense and exactly one activity, "New expense recorded", whose bold text is the expense's title |
| Server.Remove | server.js:106-109 | a non-numeric or absent id fails and changes nothing; otherwise the collection becomes exactly the store's delete of that id (that one record goes, every other one stays in order), and every other table, the activity log included, is unchanged |
| Server.ListEmployees | server.js:35-37 | every employee, each as often as stored, in no promised order |
| Server.ListCustomers | server.js:48-50 | every customer, each as often as stored, in no promised order |
| Server.ListProjects | server.js:61-63 | every project, newest first |
| Server.ListInventory | server.js:78-80 | every item, newest first |
| Server.ListExpenses | server.js:95-97 | every expense, newest first |
| Server.Activities | server.js:112-114 | min(10, n) activities, newest first, a sub-multiset of the log, none left out newer than one shown |
| Server.FindUser | server.js:26 | the user with that email, or none exactly when no user has it |
| Server.Login | server.js:24-32 | succeeds exactly when a user has the email and the password verifies against its hash; the token is signed over that user's id and email and the reply carries its name; an unknown email and a wrong password both get the same 401 reply |
| Server.Register | server.js:17-22 | fails exactly when the email is taken; otherwise adds one user holding the password's hash and nothing else |
| Server.RegisterThenLogin | server.js:17-31 | a user who just registered can log in with the same email and password |
| Server.Handler | server.js:14-114 | no handler answers `PUT`; a member path answers only `DELETE`, and a collection path only `GET` and `POST` |
| Server.Apply | server.js:34-109 | a read leaves the database as it was; only registration touches the users; only the project, item and expense creations touch the activity log, by at most one entry; a delete touches only its own collection |
| Server.Serve | server.js:14-114 | a verb and path no handler answers, every `GET` and every `PUT` leave the database as it was; only a `POST` to a non-member path or a `DELETE` of a member can change it |
| Server.RoutesOnlyAddOrRemove | server.js:34-109 | no route rewrites a stored record, the activity log and the users only grow, and the database stays well formed |
| Scenarios.NewExpenseReachesCards | server.js:98-105 | recording an expense and re-listing raises the total card by its amount, and the pending card too when it is pending |
| Scenarios.NewProjectHeadsFeed | server.js:64-71 | a project the store accepts, created after every logged activity, heads the activity feed under its own name |
| Scenarios.ExpenseEditSilentlyLost | client/src/components/Expenses.jsx:43-59 | saving an edit sends `PUT`, which has no handler, so the server leaves the database as it was whatever the request carried; the 404 is taken as success and the form is cleared with no alert |
| Scenarios.EmployeeEditRefused | client/src/components/Employees.jsx:40-46 | the same 404 in the employees view raises its alert and keeps the edit in the form |
| Scenarios.DeletedItemLeavesReport | server.js:89-92 | deleting a stored item and re-fetching shrinks the inventory report by one row |

## Left out

- Rendering, styling, React's state scheduling, `window.confirm`, `alert` and `scrollTo` are not modelled. Only
  the state each handler leaves, and the alert text it raises, are modelled.
- The views' `handleDelete` (confirm, send `DELETE`, re-fetch) is not modelled on the client side. The server's
  delete is modelled in `Server.Remove`.
- `fetch` and JSON parsing are inputs. A reply is an HTTP status or a network failure, and a loaded body is an
  array, a non-array, or a failed fetch. The reports page's five fetches are modelled as the five collections
  it holds.
- `parseFloat` and `parseInt` on the server are not modelled. A create payload carries numbers already parsed,
  with `None` standing for a value that did not parse. Number formatting with `toLocaleString`,
  `toLocaleDateString` and `toFixed(2)` is kept as structured report cells, not text. JavaScript's float and NaN
  arithmetic is replaced by `real`.
- Case folding is ASCII only, not Unicode.
- `Server.CreateProject`, `Server.CreateItem`, `Server.CreateExpense`: the entity row and its activity are one
  step stamped with the same instant. The server makes two separate writes, and a failure between them is not
  modelled.
- `Server.Remove`, `Server.Register`, `Server.CreateProject`: when the store rejects a write, the route leaves
  the database unchanged. The handler has no catch; what the client then sees is not modelled.
- `Server.Login`: hashing, verification and token signing are function parameters. The signing secret and the
  one-day expiry are not modelled. Login requires the email column to be unique, as the database guarantees.
- `Server.ListEmployees`, `Server.ListCustomers`: the listings have no `orderBy`, so only "the same rows" is
  stated and no order is promised.
- `Server.ListProjects`, `Server.ListInventory`, `Server.ListExpenses`: rows created at the same instant come in
  no promised order, so only newest-first order and "the same rows" are stated.
- `Store.Recent`, `Store.ByNewest`: the database's sort is replaced by an insertion sort, and only its result
  is stated.
- The login form's `localStorage` session is not modelled. The navigation shell (client/src/App.jsx) and the
  dashboard (client/src/components/Dashboard.jsx) are display only and are not part of this model.
- The single-report PDF and spreadsheet exports are not modelled; only the combined exports are. The PDF and
  spreadsheet libraries are not modelled either: each drawn table's end is an input to the layout.
- `Server.CreateProject`: a JSON `null` date is accepted, because `new Date(null)` is the epoch. An absent date
  key (`undefined`, an invalid date) is not told apart from `null`. Whether a non-empty text parses as a date is
  a parameter. The stored value is the text as sent, not the normalised date the database keeps.
- `Server.Serve`: the request body is taken already parsed into a route, and the route must be the one its
  handler reads (a create carries its own collection's fields, a delete names its path's collection). Parsing
  the body and the `:id` text is not modelled.
- ISO date texts are taken as they arrive; `new Date(...).toISOString()` round-tripping is assumed.

=== FILE: customers.dfy ===
/** The Customers view: search over four fields and the add/edit form. */
module Customers {
  import opened Wrappers
  import opened Records
  import opened Views
  import Seqs
  import Text

  datatype CustomerForm = CustomerForm(name: FormValue, email: FormValue, phone: FormValue, address: FormValue)

  const EmptyForm := CustomerForm(Str(""), Str(""), Str(""), Str(""))
  const NameRequired := "Name is required."
  const SaveFailed := "Failed to save customer. Check your server."

  /** The row test of `filtered`: the name, email, phone or address
      contains the search. */
  predicate Matches(c: Customer, search: string) {
    || FieldHas(c.fields.name, search) || FieldHas(c.fields.email, search)
    || FieldHas(c.fields.phone, search) || FieldHas(c.fields.address, search)
  }

  /** `filtered`: the customers the table shows; the "n of m" header never
      shows more than the whole list. */
  function Filtered(customers: seq<Customer>, search: string): (r: seq<Customer>)
    ensures Seqs.IsSubsequence(r, customers)
    ensures |r| <= |customers|
    ensures forall i :: 0 <= i < |r| ==> Matches(r[i], search)
    ensures forall i :: 0 <= i < |customers| && Matches(customers[i], search) ==> customers[i] in r
    ensures forall x :: multiset(r)[x] == if Matches(x, search) then multiset(customers)[x] else 0
  {
    var keep := c => Matches(c, search);
    Seqs.FilterIsSubsequence(customers, keep);
    Seqs.FilterMultiset(customers, keep);
    Seqs.Filter(customers, keep)
  }

  /** `handleSubmit`: the name must be non-blank text; the response status
      is never looked at. */
  function Submit(v: View<CustomerForm>, reply: Reply): (r: Submitted<CustomerForm>)
    ensures r.request.Some? <==> v.form.name.Str? && !Text.IsBlank(v.form.name.s)
    ensures r.request.Some? ==> r.request.value == RequestFor(v)
    ensures r.request.None? ==> r.view == v && !r.reload
    ensures v.form.name.Str? && Text.IsBlank(v.form.name.s) ==> r.alert == Some(NameRequired)
    ensures !v.form.name.Str? ==> r.alert.None?
    ensures r.request.Some? && reply.NetworkFailure? ==> r.view == v && r.alert == Some(SaveFailed) && !r.reload
    ensures r.request.Some? && reply.Response? ==>
      r.view.form == EmptyForm && !r.view.showForm && !Editing(r.view) && r.alert.None? && r.reload
  {
    var name := RequireText(v.form.name, NameRequired);
    if !name.Pass? then Stopped(v, name)
    else Save(v, reply, false, EmptyForm, Some(SaveFailed))
  }

  /** `handleEdit`: exactly the four fields, copied as they are, and the
      record's identifier. */
  function StartEdit(v: View<CustomerForm>, c: Customer): (r: View<CustomerForm>)
    ensures r.form.name == FromText(c.fields.name) && r.form.email == FromText(c.fields.email)
    ensures r.form.phone == FromText(c.fields.phone) && r.form.address == FromText(c.fields.address)
    ensures r.editingId == Some(c.id) && r.showForm
  {
    Edit(v, CustomerForm(FromText(c.fields.name), FromText(c.fields.email),
                         FromText(c.fields.phone), FromText(c.fields.address)), c.id)
  }

  /** Editing a customer whose name is null and saving does nothing at all:
      `trim` throws before any alert or request. */
  lemma NamelessEditSubmitsNothing(v: View<CustomerForm>, c: Customer, reply: Reply)
    requires c.fields.name.None?
    ensures Submit(StartEdit(v, c), reply).request.None?
    ensures Submit(StartEdit(v, c), reply).alert.None?
  {
  }

  /** `handleCancel`: four empty fields, no `editingId`, form hidden. */
  function CancelForm(v: View<CustomerForm>): (r: View<CustomerForm>)
    ensures r.form == CustomerForm(Str(""), Str(""), Str(""), Str(""))
    ensures r.editingId.None? && !r.showForm
  {
    Cancel(v, EmptyForm)
  }
}

=== FILE: employees.dfy ===
/** The Employees view: search over four fields and the add/edit form,
    whose save checks the response status. */
module Employees {
  import opened Wrappers
  import opened Records
  import opened Views
  import Seqs
  import Text

  datatype EmployeeForm = EmployeeForm(
    name: FormValue, email: FormValue, phone: FormValue, role: FormValue, department: FormValue, salary: FormValue)

  const EmptyForm := EmployeeForm(Str(""), Str(""), Str(""), Str(""), Str(""), Str(""))
  const NameRequired := "Name is required."
  const SaveFailed := "Failed to save employee. Check your server."

  /** The row test of `filtered`: the name, email, role or department
      contains the search. */
  predicate Matches(e: Employee, search: string) {
    || FieldHas(e.fields.name, search) || FieldHas(e.fields.email, search)
    || FieldHas(e.fields.role, search) || FieldHas(e.fields.department, search)
  }

  /** `filtered`: the employees the list shows. */
  function Filtered(employees: seq<Employee>, search: string): (r: seq<Employee>)
    ensures Seqs.IsSubsequence(r, employees)
    ensures forall i :: 0 <= i < |r| ==> Matches(r[i], search)
    ensures forall i :: 0 <= i < |employees| && Matches(employees[i], search) ==> employees[i] in r
    ensures forall x :: multiset(r)[x] == if Matches(x, search) then multiset(employees)[x] else 0
  {
    var keep := e => Matches(e, search);
    Seqs.FilterIsSubsequence(employees, keep);
    Seqs.FilterMultiset(employees, keep);
    Seqs.Filter(employees, keep)
  }

  /** Phone and salary are not searched: changing them never changes
      whether an employee is shown. */
  lemma PhoneAndSalaryNotSearched(e: Employee, search: string, phone: Option<string>, salary: Option<real>)
    ensures Matches(e.(fields := e.fields.(phone := phone, salary := salary)), search) == Matches(e, search)
  {
  }

  /** `handleSubmit`: the name must be non-blank text; a response that is
      not 2xx fails like a network error. */
  function Submit(v: View<EmployeeForm>, reply: Reply): (r: Submitted<EmployeeForm>)
    ensures r.request.Some? <==> v.form.name.Str? && !Text.IsBlank(v.form.name.s)
    ensures r.request.Some? ==> r.request.value == RequestFor(v)
    ensures r.request.None? ==> r.view == v && !r.reload
    ensures v.form.name.Str? && Text.IsBlank(v.form.name.s) ==> r.alert == Some(NameRequired)
    ensures !v.form.name.Str? ==> r.alert.None?
    ensures r.request.Some? && !IsOk(reply) ==> r.view == v && r.alert == Some(SaveFailed) && !r.reload
    ensures r.request.Some? && IsOk(reply) ==>
      r.view.form == EmptyForm && !r.view.showForm && !Editing(r.view) && r.alert.None? && r.reload
  {
    var name := RequireText(v.form.name, NameRequired);
    if !name.Pass? then Stopped(v, name)
    else Save(v, reply, true, EmptyForm, Some(SaveFailed))
  }

  /** `handleEdit`: every field is copied with `|| ''`, so each falsy value,
      a salary of 0 included, becomes the empty text. */
  function EditForm(e: Employee): (f: EmployeeForm)
    ensures f.name == OrEmpty(FromText(e.fields.name)) && f.email == OrEmpty(FromText(e.fields.email))
    ensures f.phone == OrEmpty(FromText(e.fields.phone)) && f.role == OrEmpty(FromText(e.fields.role))
    ensures f.department == OrEmpty(FromText(e.fields.department))
    ensures f.salary == OrEmpty(FromNumber(e.fields.salary))
  {
    EmployeeForm(OrEmpty(FromText(e.fields.name)), OrEmpty(FromText(e.fields.email)),
                 OrEmpty(FromText(e.fields.phone)), OrEmpty(FromText(e.fields.role)),
                 OrEmpty(FromText(e.fields.department)), OrEmpty(FromNumber(e.fields.salary)))
  }

  function StartEdit(v: View<EmployeeForm>, e: Employee): (r: View<EmployeeForm>)
    ensures r.form == EditForm(e) && r.editingId == Some(e.id) && r.showForm
  {
    Edit(v, EditForm(e), e.id)
  }

  /** A salary of 0 shows as an empty salary field. */
  lemma ZeroSalaryEditsAsEmpty(e: Employee)
    requires e.fields.salary == Some(0.0)
    ensures EditForm(e).salary == Str("")
  {
  }

  /** After an edit the name field is always text, so the submit guard can
      never throw: it either sends or alerts. */
  lemma EditedSubmitNeverThrows(v: View<EmployeeForm>, e: Employee, reply: Reply)
    ensures Submit(StartEdit(v, e), reply).request.Some? || Submit(StartEdit(v, e), reply).alert.Some?
  {
  }

  /** `handleCancel`: six empty fields, no `editingId`, form hidden. */
  function CancelForm(v: View<EmployeeForm>): (r: View<EmployeeForm>)
    ensures r.form == EmployeeForm(Str(""), Str(""), Str(""), Str(""), Str(""), Str(""))
    ensures r.editingId.None? && !r.showForm
  {
    Cancel(v, EmptyForm)
  }
}

=== FILE: expenses.dfy ===
/** The Expenses view: search and category filter, the three summary
    totals, and the add/edit form. */
module Expenses {
  import opened Wrappers
  import opened Records
  import opened Views
  import Seqs
  import Text

  datatype ExpenseForm = ExpenseForm(title: FormValue, amount: FormValue, category: FormValue, projectName: FormValue)

  const EmptyForm := ExpenseForm(Str(""), Str(""), Str(""), Str(""))
  const TitleRequired := "Expense title is required."
  const AmountRequired := "Amount is required."
  const SaveFailed := "Failed to save expense. Check your server."

  /** The row test of `filtered`: the title or the project name contains the
      search, and the category filter is "all" or equals the category. */
  predicate Matches(e: Expense, search: string, category: string) {
    && (FieldHas(e.fields.title, search) || FieldHas(e.fields.projectName, search))
    && (category == "all" || e.fields.category == Some(category))
  }

  /** `filtered`: the expenses the table shows. */
  function Filtered(expenses: seq<Expense>, search: string, category: string): (r: seq<Expense>)
    ensures Seqs.IsSubsequence(r, expenses)
    ensures forall i :: 0 <= i < |r| ==> Matches(r[i], search, category)
    ensures forall i :: 0 <= i < |expenses| && Matches(expenses[i], search, category) ==> expenses[i] in r
    ensures forall x :: multiset(r)[x] == if Matches(x, search, category) then multiset(expenses)[x] else 0
  {
    var keep := e => Matches(e, search, category);
    Seqs.FilterIsSubsequence(expenses, keep);
    Seqs.FilterMultiset(expenses, keep);
    Seqs.Filter(expenses, keep)
  }

  /** An expense with neither a title nor a project name is never shown,
      not even for the empty search. */
  lemma UntitledNeverShown(expenses: seq<Expense>, search: string, category: string, e: Expense)
    requires e.fields.title.None? && e.fields.projectName.None?
    ensures e !in Filtered(expenses, search, category)
  {
  }

  /** With the empty search and the "all" filter, the table shows exactly
      the expenses that have a title or a project name. */
  lemma EmptySearchShowsNamed(expenses: seq<Expense>, e: Expense)
    requires e in expenses
    ensures e in Filtered(expenses, "", "all") <==> e.fields.title.Some? || e.fields.projectName.Some?
  {
    EmptySearchMatchesPresent(e.fields.title);
    EmptySearchMatchesPresent(e.fields.projectName);
  }

  /** Every amount is zero or more (a null amount counts as 0). */
  predicate NonNegative(expenses: seq<Expense>) {
    forall i :: 0 <= i < |expenses| ==> Amount(expenses[i]) >= 0.0
  }

  /** `total`: every amount, null counted as 0; never negative when no
      amount is. */
  function Total(expenses: seq<Expense>): (r: real)
    ensures NonNegative(expenses) ==> r >= 0.0
  {
    assert NonNegative(expenses) ==> Seqs.Sum(expenses, Amount) >= 0.0 by {
      if NonNegative(expenses) {
        Seqs.SumNonNegative(expenses, Amount);
      }
    }
    Seqs.Sum(expenses, Amount)
  }

  /** The sum over one category: none of the expenses in it gives 0, and with
      non-negative amounts it lies between 0 and the total. */
  function CategorySum(expenses: seq<Expense>, inCategory: Expense -> bool): (r: real)
    ensures (forall i :: 0 <= i < |expenses| ==> !inCategory(expenses[i])) ==> r == 0.0
    ensures NonNegative(expenses) ==> 0.0 <= r <= Total(expenses)
  {
    var chosen := Seqs.Filter(expenses, inCategory);
    var others := Seqs.Filter(expenses, e => !inCategory(e));
    Seqs.FilterNone(expenses, inCategory);
    Seqs.SumSplits(expenses, Amount, inCategory, e => !inCategory(e));
    assert NonNegative(expenses) ==> 0.0 <= Seqs.Sum(chosen, Amount) <= Total(expenses) by {
      if NonNegative(expenses) {
        Seqs.SumNonNegative(chosen, Amount);
        Seqs.SumNonNegative(others, Amount);
      }
    }
    Seqs.Sum(chosen, Amount)
  }

  /** `pending`: the amounts of the expenses whose category is "pending". */
  function Pending(expenses: seq<Expense>): (r: real)
    ensures (forall i :: 0 <= i < |expenses| ==> !IsPending(expenses[i])) ==> r == 0.0
    ensures NonNegative(expenses) ==> 0.0 <= r <= Total(expenses)
  {
    CategorySum(expenses, IsPending)
  }

  /** `paid`: the amounts of the expenses whose category is "paid". */
  function Paid(expenses: seq<Expense>): (r: real)
    ensures (forall i :: 0 <= i < |expenses| ==> !IsPaid(expenses[i])) ==> r == 0.0
    ensures NonNegative(expenses) ==> 0.0 <= r <= Total(expenses)
  {
    CategorySum(expenses, IsPaid)
  }

  /** An empty list totals 0 on all three cards. */
  lemma NoExpensesNoTotals()
    ensures Total([]) == 0.0 && Pending([]) == 0.0 && Paid([]) == 0.0
  {
  }

  /** Pending and paid select disjoint expenses, so with non-negative
      amounts they never add up to more than the total. */
  lemma PendingPlusPaidWithinTotal(expenses: seq<Expense>)
    requires NonNegative(expenses)
    ensures Pending(expenses) + Paid(expenses) <= Total(expenses)
  {
    Seqs.DisjointSumsBounded(expenses, Amount, IsPending, IsPaid);
  }

  /** The total splits into the pending amounts and all the others. */
  lemma TotalSplitsAtPending(expenses: seq<Expense>)
    ensures Pending(expenses) + Seqs.Sum(Seqs.Filter(expenses, NotPending), Amount) == Total(expenses)
  {
    Seqs.SumSplits(expenses, Amount, IsPending, NotPending);
  }

  predicate NotPending(e: Expense) {
    !IsPending(e)
  }

  /** What the page shows for a list, a search and a category filter. */
  datatype Page = Page(expenses: seq<Expense>, search: string, category: string)

  datatype Display = Display(shown: seq<Expense>, total: real, pending: real, paid: real)

  function Render(p: Page): (d: Display)
    ensures |d.shown| <= |p.expenses|
    ensures d.total == Total(p.expenses) && d.pending == Pending(p.expenses) && d.paid == Paid(p.expenses)
  {
    Display(Filtered(p.expenses, p.search, p.category), Total(p.expenses), Pending(p.expenses), Paid(p.expenses))
  }

  /** The summary cards ignore the search box and the category filter. */
  lemma CardsIgnoreFilter(p: Page, search: string, category: string)
    ensures Render(p.(search := search, category := category)).total == Render(p).total
    ensures Render(p.(search := search, category := category)).pending == Render(p).pending
    ensures Render(p.(search := search, category := category)).paid == Render(p).paid
  {
  }

  /** `handleSubmit`: the title must be non-blank text and the amount
      truthy; the response status is never looked at. */
  function Submit(v: View<ExpenseForm>, reply: Reply): (r: Submitted<ExpenseForm>)
    ensures r.request.Some? <==>
      v.form.title.Str? && !Text.IsBlank(v.form.title.s) && Truthy(v.form.amount)
    ensures r.request.Some? ==> r.request.value == RequestFor(v)
    ensures r.request.None? ==> r.view == v && !r.reload
    ensures v.form.title.Str? && Text.IsBlank(v.form.title.s) ==> r.alert == Some(TitleRequired)
    ensures v.form.title.Str? && !Text.IsBlank(v.form.title.s) && !Truthy(v.form.amount) ==>
      r.alert == Some(AmountRequired)
    ensures !v.form.title.Str? ==> r.alert.None?
    ensures r.request.Some? && reply.NetworkFailure? ==> r.view == v && r.alert == Some(SaveFailed) && !r.reload
    ensures r.request.Some? && reply.Response? ==>
      r.view.form == EmptyForm && !r.view.showForm && !Editing(r.view) && r.alert.None? && r.reload
  {
    var title := RequireText(v.form.title, TitleRequired);
    if !title.Pass? then Stopped(v, title)
    else
      var amount := RequireTruthy(v.form.amount, AmountRequired);
      if !amount.Pass? then Stopped(v, amount)
      else Save(v, reply, false, EmptyForm, Some(SaveFailed))
  }

  /** `handleEdit`: the record's four fields are copied as they are. */
  function EditForm(e: Expense): (f: ExpenseForm)
    ensures f.title == FromText(e.fields.title) && f.amount == FromNumber(e.fields.amount)
    ensures f.category == FromText(e.fields.category) && f.projectName == FromText(e.fields.projectName)
  {
    ExpenseForm(FromText(e.fields.title), FromNumber(e.fields.amount),
                FromText(e.fields.category), FromText(e.fields.projectName))
  }

  function StartEdit(v: View<ExpenseForm>, e: Expense): (r: View<ExpenseForm>)
    ensures r.form == EditForm(e) && r.editingId == Some(e.id) && r.showForm
  {
    Edit(v, EditForm(e), e.id)
  }

  /** `handleCancel`: four empty fields, no `editingId`, form hidden. */
  function CancelForm(v: View<ExpenseForm>): (r: View<ExpenseForm>)
    ensures r.form == ExpenseForm(Str(""), Str(""), Str(""), Str(""))
    ensures r.editingId.None? && !r.showForm
  {
    Cancel(v, EmptyForm)
  }

  /** Editing an expense whose amount is 0 and submitting it is refused:
      `!form.amount` is true for the number 0. */
  lemma ZeroAmountRefusedAfterEdit(v: View<ExpenseForm>, e: Expense, reply: Reply)
    requires e.fields.title.Some? && !Text.IsBlank(e.fields.title.value)
    requires e.fields.amount == Some(0.0)
    ensures Submit(StartEdit(v, e), reply).request.None?
    ensures Submit(StartEdit(v, e), reply).alert == Some(AmountRequired)
  {
  }
}

=== FILE: inventory.dfy ===
/** The Inventory view: search over name and unit, the low-stock flag, the
    line value, and the unguarded add/edit form. */
module Inventory {
  import opened Wrappers
  import opened Records
  import opened Views
  import Seqs

  datatype ItemForm = ItemForm(name: FormValue, quantity: FormValue, unit: FormValue, price: FormValue)

  const EmptyForm := ItemForm(Str(""), Str(""), Str(""), Str(""))

  /** Quantities below this are shown in red. */
  const LowStockBelow := 10

  /** The row test of `filtered`: the name or the unit contains the search. */
  predicate Matches(item: Item, search: string) {
    FieldHas(item.fields.name, search) || FieldHas(item.fields.unit, search)
  }

  /** `filtered`: the items the table shows. */
  function Filtered(items: seq<Item>, search: string): (r: seq<Item>)
    ensures Seqs.IsSubsequence(r, items)
    ensures forall i :: 0 <= i < |r| ==> Matches(r[i], search)
    ensures forall i :: 0 <= i < |items| && Matches(items[i], search) ==> items[i] in r
    ensures forall x :: multiset(r)[x] == if Matches(x, search) then multiset(items)[x] else 0
  {
    var keep := item => Matches(item, search);
    Seqs.FilterIsSubsequence(items, keep);
    Seqs.FilterMultiset(items, keep);
    Seqs.Filter(items, keep)
  }

  /** The low-stock highlight (`quantity < 10`); a null quantity reads as 0
      and is highlighted. */
  predicate LowStock(item: Item)
    ensures item.fields.quantity.Some? ==> (LowStock(item) <==> item.fields.quantity.value < LowStockBelow)
    ensures item.fields.quantity.None? ==> LowStock(item)
  {
    Count(item.fields.quantity) < LowStockBelow
  }

  /** A row's total value, quantity times price, a null read as 0. */
  function LineValue(item: Item): (v: real)
    ensures item.fields.quantity.Some? && item.fields.price.Some? ==>
      v == item.fields.quantity.value as real * item.fields.price.value
    ensures item.fields.quantity.None? || item.fields.price.None? ==> v == 0.0
  {
    Count(item.fields.quantity) as real * Num(item.fields.price)
  }

  /** `handleSubmit`: no guard at all; there is no `catch`, so a failed
      fetch leaves the view as it was and raises no alert. */
  function Submit(v: View<ItemForm>, reply: Reply): (r: Submitted<ItemForm>)
    ensures r.request == Some(RequestFor(v))
    ensures r.alert.None?
    ensures reply.NetworkFailure? ==> r.view == v && !r.reload
    ensures reply.Response? ==>
      r.view.form == EmptyForm && !r.view.showForm && !Editing(r.view) && r.reload
  {
    Save(v, reply, false, EmptyForm, None)
  }

  /** `handleEdit`: the four fields copied as they are. */
  function StartEdit(v: View<ItemForm>, item: Item): (r: View<ItemForm>)
    ensures r.form.name == FromText(item.fields.name) && r.form.unit == FromText(item.fields.unit)
    ensures r.form.price == FromNumber(item.fields.price)
    ensures item.fields.quantity.Some? ==> r.form.quantity == Number(item.fields.quantity.value as real)
    ensures item.fields.quantity.None? ==> r.form.quantity == Null
    ensures r.editingId == Some(item.id) && r.showForm
  {
    var quantity := if item.fields.quantity.Some? then Some(item.fields.quantity.value as real) else None;
    Edit(v, ItemForm(FromText(item.fields.name), FromNumber(quantity),
                     FromText(item.fields.unit), FromNumber(item.fields.price)), item.id)
  }

  /** `handleCancel`: four empty fields, no `editingId`, form hidden. */
  function CancelForm(v: View<ItemForm>): (r: View<ItemForm>)
    ensures r.form == ItemForm(Str(""), Str(""), Str(""), Str(""))
    ensures r.editingId.None? && !r.showForm
  {
    Cancel(v, EmptyForm)
  }

  /** `fetchItems`: there is no `catch` and no array test. A failed fetch
      leaves the list as it was; a body that is not an array reaches
      `items.filter` and the view fails to render (`None`). */
  function LoadItems(current: seq<Item>, f: Fetch<Item>): (r: Option<seq<Item>>)
    ensures f.Fetched? ==> r == Some(f.data)
    ensures f.Offline? ==> r == Some(current)
    ensures f.NotAList? ==> r.None?
  {
    match f
    case Fetched(data) => Some(data)
    case Offline => Some(current)
    case NotAList => None
  }
}

=== FILE: projects.dfy ===
/** The Projects view: search and status filter, the status badge, and the
    add/edit form with its date fields. */
module Projects {
  import opened Wrappers
  import opened Records
  import opened Views
  import Seqs
  import Text

  datatype ProjectForm = ProjectForm(
    name: FormValue, description: FormValue, status: FormValue, startDate: FormValue, endDate: FormValue)

  /** The blank form; its status starts at "pending". */
  const EmptyForm := ProjectForm(Str(""), Str(""), Str("pending"), Str(""), Str(""))
  const NameRequired := "Project name is required."
  const SaveFailed := "Failed to save project. Check your server."

  /** The row test of `filtered`: the name or the description contains the
      search, and the status filter is "all" or equals the status. */
  predicate Matches(p: Project, search: string, status: string) {
    && (FieldHas(p.fields.name, search) || FieldHas(p.fields.description, search))
    && (status == "all" || p.fields.status == Some(status))
  }

  /** `filtered`: the projects the table shows. */
  function Filtered(projects: seq<Project>, search: string, status: string): (r: seq<Project>)
    ensures Seqs.IsSubsequence(r, projects)
    ensures forall i :: 0 <= i < |r| ==> Matches(r[i], search, status)
    ensures forall i :: 0 <= i < |projects| && Matches(projects[i], search, status) ==> projects[i] in r
    ensures forall x :: multiset(r)[x] == if Matches(x, search, status) then multiset(projects)[x] else 0
  {
    var keep := p => Matches(p, search, status);
    Seqs.FilterIsSubsequence(projects, keep);
    Seqs.FilterMultiset(projects, keep);
    Seqs.Filter(projects, keep)
  }

  /** Filtering by a status shows only projects with exactly that status. */
  lemma StatusFilterIsExact(projects: seq<Project>, search: string, status: string, p: Project)
    requires status != "all" && p in Filtered(projects, search, status)
    ensures p.fields.status == Some(status) && p in projects
  {
  }

  datatype Badge = Green | Blue | Yellow

  /** The status badge colour: completed is green, active is blue, and any
      other value, a missing one included, is yellow. */
  function StatusBadge(status: Option<string>): (b: Badge)
    ensures b == Green <==> status == Some("completed")
    ensures b == Blue <==> status == Some("active")
    ensures b == Yellow <==> status != Some("completed") && status != Some("active")
  {
    if status == Some("completed") then Green
    else if status == Some("active") then Blue
    else Yellow
  }

  /** `handleSubmit`: the name must be non-blank text; the response status
      is never looked at. */
  function Submit(v: View<ProjectForm>, reply: Reply): (r: Submitted<ProjectForm>)
    ensures r.request.Some? <==> v.form.name.Str? && !Text.IsBlank(v.form.name.s)
    ensures r.request.Some? ==> r.request.value == RequestFor(v)
    ensures r.request.None? ==> r.view == v && !r.reload
    ensures v.form.name.Str? && Text.IsBlank(v.form.name.s) ==> r.alert == Some(NameRequired)
    ensures !v.form.name.Str? ==> r.alert.None?
    ensures r.request.Some? && reply.NetworkFailure? ==> r.view == v && r.alert == Some(SaveFailed) && !r.reload
    ensures r.request.Some? && reply.Response? ==>
      r.view.form == EmptyForm && !r.view.showForm && !Editing(r.view) && r.alert.None? && r.reload
  {
    var name := RequireText(v.form.name, NameRequired);
    if !name.Pass? then Stopped(v, name)
    else Save(v, reply, false, EmptyForm, Some(SaveFailed))
  }

  /** An edit-form date: the part of the ISO timestamp before its "T", or
      the empty text when the date is missing or empty. */
  function DateField(d: Option<string>): (r: FormValue)
    ensures r.Str?
    ensures !IsTruthyText(d) ==> r.s == ""
    ensures IsTruthyText(d) ==> |r.s| <= |d.value| && r.s == d.value[..|r.s|] && 'T' !in r.s
    ensures IsTruthyText(d) && |r.s| < |d.value| ==> d.value[|r.s|] == 'T'
  {
    if IsTruthyText(d) then Str(Text.PrefixBefore(d.value, 'T')) else Str("")
  }

  /** A timestamp written as `date` "T" `time` puts exactly `date` into the
      form. */
  lemma DateFieldOfTimestamp(date: string, time: string)
    requires 'T' !in date
    ensures DateField(Some(date + "T" + time)) == Str(date)
  {
    Text.PrefixBeforeJoin(date, 'T', time);
  }

  /** `handleEdit`: name, description and status are copied as they are,
      the dates are cut to their date part. */
  function EditForm(p: Project): (f: ProjectForm)
    ensures f.name == FromText(p.fields.name) && f.description == FromText(p.fields.description)
    ensures f.status == FromText(p.fields.status)
    ensures f.startDate == DateField(p.fields.startDate) && f.endDate == DateField(p.fields.endDate)
  {
    ProjectForm(FromText(p.fields.name), FromText(p.fields.description), FromText(p.fields.status),
                DateField(p.fields.startDate), DateField(p.fields.endDate))
  }

  function StartEdit(v: View<ProjectForm>, p: Project): (r: View<ProjectForm>)
    ensures r.form == EditForm(p) && r.editingId == Some(p.id) && r.showForm
  {
    Edit(v, EditForm(p), p.id)
  }

  /** `handleCancel`: empty fields with status "pending", no `editingId`,
      form hidden. */
  function CancelForm(v: View<ProjectForm>): (r: View<ProjectForm>)
    ensures r.form == ProjectForm(Str(""), Str(""), Str("pending"), Str(""), Str(""))
    ensures r.editingId.None? && !r.showForm
  {
    Cancel(v, EmptyForm)
  }
}

=== FILE: records.dfy ===
/** The records the server stores and the client receives as JSON. Text
    fields are `Option<string>` and numeric fields `Option<...>` because any
    of them may arrive as `null` (a missing form field, or a number that did
    not parse and was serialised as null). */
module Records {
  import opened Wrappers

  /** Milliseconds since the epoch; only the order of timestamps matters. */
  type Timestamp = int

  /** A stored row: the store-assigned identifier and creation time, and the
      entity's own fields. */
  datatype Row<T> = Row(id: int, createdAt: Timestamp, fields: T)

  datatype EmployeeFields = EmployeeFields(
    name: Option<string>, email: Option<string>, phone: Option<string>,
    role: Option<string>, department: Option<string>, salary: Option<real>)

  datatype CustomerFields = CustomerFields(
    name: Option<string>, email: Option<string>, phone: Option<string>, address: Option<string>)

  /** Start and end dates are ISO-8601 date-time texts as the JSON carries them. */
  datatype ProjectFields = ProjectFields(
    name: Option<string>, description: Option<string>, status: Option<string>,
    startDate: Option<string>, endDate: Option<string>)

  datatype ItemFields = ItemFields(
    name: Option<string>, quantity: Option<int>, unit: Option<string>, price: Option<real>)

  datatype ExpenseFields = ExpenseFields(
    title: Option<string>, amount: Option<real>, category: Option<string>, projectName: Option<string>)

  datatype ActivityFields = ActivityFields(description: string, bold: Option<string>)

  datatype UserFields = UserFields(name: Option<string>, email: string, passwordHash: string)

  type Employee = Row<EmployeeFields>
  type Customer = Row<CustomerFields>
  type Project = Row<ProjectFields>
  type Item = Row<ItemFields>
  type Expense = Row<ExpenseFields>
  type Activity = Row<ActivityFields>
  type User = Row<UserFields>

  /** JavaScript's numeric reading of a JSON number or null (`Number(x)`,
      `sum + x`, `x < 10`, `x * y`): null reads as 0. */
  function Num(x: Option<real>): (r: real)
    ensures x.Some? ==> r == x.value
    ensures x.None? ==> r == 0.0
  {
    x.GetOr(0.0)
  }

  function Count(x: Option<int>): (r: int)
    ensures x.Some? ==> r == x.value
    ensures x.None? ==> r == 0
  {
    x.GetOr(0)
  }

  /** A JSON text value is truthy when it is present and not empty. */
  predicate IsTruthyText(x: Option<string>) {
    x.Some? && x.value != ""
  }

  /** The amount an expense contributes to a total. */
  function Amount(e: Expense): real {
    Num(e.fields.amount)
  }

  /** The category tests of the expense summaries (`e.category === 'pending'`
      and `e.category === 'paid'`). */
  predicate IsPending(e: Expense) {
    e.fields.category == Some("pending")
  }

  predicate IsPaid(e: Expense) {
    e.fields.category == Some("paid")
  }
}

=== FILE: reports.dfy ===
/** The Reports page: the five report definitions (columns and one row per
    record), the combined workbook's sheet names, the combined document's
    page-break rule, and the two expense figures. */
module Reports {
  import opened Wrappers
  import opened Records
  import Seqs
  import Text
  import Inventory
  import Expenses

  /** One table cell, kept as what it displays rather than as formatted
      text: a field as is, a quantity, "$" followed by a number (or by
      "null"), "$" followed by a number with two decimals, a locale date of
      an ISO text or of a creation time, or "-". */
  datatype Cell =
    | Field(text: Option<string>)
    | Quantity(n: Option<int>)
    | Dollars(amount: Option<real>)
    | DollarsFixed2(value: real)
    | LocalDate(iso: string)
    | LocalDay(at: Timestamp)
    | Dash

  datatype Report = Report(title: string, columns: seq<string>, rows: seq<seq<Cell>>, count: nat)

  /** The five collections the page fetched (each empty until its fetch
      resolves). */
  datatype Collections = Collections(
    employees: seq<Employee>, customers: seq<Customer>, projects: seq<Project>,
    inventory: seq<Item>, expenses: seq<Expense>)

  const EmployeeColumns: seq<string> := ["Name", "Email", "Phone", "Role", "Department", "Salary"]
  const CustomerColumns: seq<string> := ["Name", "Email", "Phone", "Address"]
  const ProjectColumns: seq<string> := ["Name", "Description", "Status", "Start Date", "End Date"]
  const InventoryColumns: seq<string> := ["Name", "Quantity", "Unit", "Price", "Total Value"]
  const ExpenseColumns: seq<string> := ["Title", "Amount", "Category", "Project", "Date"]

  function EmployeeRow(e: Employee): (row: seq<Cell>)
    ensures |row| == |EmployeeColumns|
    ensures row[0] == Field(e.fields.name) && row[5] == Dollars(e.fields.salary)
  {
    [Field(e.fields.name), Field(e.fields.email), Field(e.fields.phone), Field(e.fields.role),
     Field(e.fields.department), Dollars(e.fields.salary)]
  }

  function CustomerRow(c: Customer): (row: seq<Cell>)
    ensures |row| == |CustomerColumns|
    ensures row[0] == Field(c.fields.name)
  {
    [Field(c.fields.name), Field(c.fields.email), Field(c.fields.phone), Field(c.fields.address)]
  }

  /** A project date: its locale date when it is a non-empty text, "-"
      otherwise. */
  function DateCell(d: Option<string>): (cell: Cell)
    ensures cell == Dash <==> !IsTruthyText(d)
    ensures IsTruthyText(d) ==> cell == LocalDate(d.value)
  {
    if IsTruthyText(d) then LocalDate(d.value) else Dash
  }

  function ProjectRow(p: Project): (row: seq<Cell>)
    ensures |row| == |ProjectColumns|
    ensures row[3] == Dash <==> !IsTruthyText(p.fields.startDate)
    ensures row[4] == Dash <==> !IsTruthyText(p.fields.endDate)
  {
    [Field(p.fields.name), Field(p.fields.description), Field(p.fields.status),
     DateCell(p.fields.startDate), DateCell(p.fields.endDate)]
  }

  /** An inventory row; its total-value cell is the value the Inventory
      table shows, quantity times price. */
  function ItemRow(i: Item): (row: seq<Cell>)
    ensures |row| == |InventoryColumns|
    ensures row[4] == DollarsFixed2(Inventory.LineValue(i))
    ensures i.fields.quantity.Some? && i.fields.price.Some? ==>
      row[4] == DollarsFixed2(i.fields.quantity.value as real * i.fields.price.value)
  {
    [Field(i.fields.name), Quantity(i.fields.quantity), Field(i.fields.unit),
     Dollars(i.fields.price), DollarsFixed2(Inventory.LineValue(i))]
  }

  /** An expense row; a missing or empty project name shows "-". */
  function ExpenseRow(e: Expense): (row: seq<Cell>)
    ensures |row| == |ExpenseColumns|
    ensures row[3] == Dash <==> !IsTruthyText(e.fields.projectName)
    ensures row[4] == LocalDay(e.createdAt)
  {
    var project := if IsTruthyText(e.fields.projectName) then Field(e.fields.projectName) else Dash;
    [Field(e.fields.title), Dollars(e.fields.amount), Field(e.fields.category), project, LocalDay(e.createdAt)]
  }

  /** `rows()`: one row per record, in the collection's order. */
  function Rows<T>(records: seq<T>, rowOf: T -> seq<Cell>): (rows: seq<seq<Cell>>)
    ensures |rows| == |records|
    ensures forall i :: 0 <= i < |records| ==> rows[i] == rowOf(records[i])
    decreases |records|
  {
    if |records| == 0 then [] else [rowOf(records[0])] + Rows(records[1..], rowOf)
  }

  function MakeReport<T>(title: string, columns: seq<string>, records: seq<T>, rowOf: T -> seq<Cell>): (r: Report)
    ensures r.title == title && r.columns == columns
    ensures r.count == |records| == |r.rows|
    ensures forall i :: 0 <= i < |records| ==> r.rows[i] == rowOf(records[i])
  {
    Report(title, columns, Rows(records, rowOf), |records|)
  }

  /** The fixed list of reports: Employees, Customers, Projects, Inventory,
      Expenses, each counting and listing its whole collection. */
  function AllReports(c: Collections): (rs: seq<Report>)
    ensures |rs| == 5
    ensures rs[0].title == "Employees Report" && rs[1].title == "Customers Report"
    ensures rs[2].title == "Projects Report" && rs[3].title == "Inventory Report"
    ensures rs[4].title == "Expenses Report"
    ensures rs[0].count == |c.employees| && rs[1].count == |c.customers| && rs[2].count == |c.projects|
    ensures rs[3].count == |c.inventory| && rs[4].count == |c.expenses|
    ensures forall k :: 0 <= k < 5 ==> |rs[k].rows| == rs[k].count
  {
    [ MakeReport("Employees Report", EmployeeColumns, c.employees, EmployeeRow),
      MakeReport("Customers Report", CustomerColumns, c.customers, CustomerRow),
      MakeReport("Projects Report", ProjectColumns, c.projects, ProjectRow),
      MakeReport("Inventory Report", InventoryColumns, c.inventory, ItemRow),
      MakeReport("Expenses Report", ExpenseColumns, c.expenses, ExpenseRow) ]
  }

  /** Every row of every report has exactly as many cells as the report
      has columns. */
  lemma RowsFitColumns(c: Collections)
    ensures forall k, i :: 0 <= k < 5 && 0 <= i < |AllReports(c)[k].rows| ==>
      |AllReports(c)[k].rows[i]| == |AllReports(c)[k].columns|
  {
    var rs := AllReports(c);
    forall k, i | 0 <= k < 5 && 0 <= i < |rs[k].rows|
      ensures |rs[k].rows[i]| == |rs[k].columns|
    {
      if k == 0 {
        assert rs[k].rows[i] == EmployeeRow(c.employees[i]);
      } else if k == 1 {
        assert rs[k].rows[i] == CustomerRow(c.customers[i]);
      } else if k == 2 {
        assert rs[k].rows[i] == ProjectRow(c.projects[i]);
      } else if k == 3 {
        assert rs[k].rows[i] == ItemRow(c.inventory[i]);
      } else {
        assert rs[k].rows[i] == ExpenseRow(c.expenses[i]);
      }
    }
  }

  /** `totalExpenses` and `pendingExpenses`: the same two sums the expenses
      view shows on its total and pending cards. The pending figure is part
      of the total, the rest being the expenses that are not pending. */
  function ExpenseFigures(c: Collections): (r: (real, real))
    ensures r == (Expenses.Total(c.expenses), Expenses.Pending(c.expenses))
    ensures r.0 - r.1 == Seqs.Sum(Seqs.Filter(c.expenses, Expenses.NotPending), Amount)
    ensures Expenses.NonNegative(c.expenses) ==> 0.0 <= r.1 <= r.0
    ensures (forall i :: 0 <= i < |c.expenses| ==> !IsPending(c.expenses[i])) ==> r.1 == 0.0
  {
    Expenses.TotalSplitsAtPending(c.expenses);
    (Expenses.Total(c.expenses), Expenses.Pending(c.expenses))
  }

  /** One sheet of a workbook: its name, the header row, the body rows. */
  datatype Sheet = Sheet(name: string, header: seq<string>, body: seq<seq<Cell>>)

  /** `title.split(' ')[0]`: the first space-separated word of a title. */
  function SheetName(title: string): (name: string)
    ensures |name| <= |title| && name == title[..|name|] && ' ' !in name
    ensures |name| < |title| ==> title[|name|] == ' '
  {
    Text.PrefixBefore(title, ' ')
  }

  /** `exportFullExcel`: one sheet per report, in report order, named by
      the first word of its title. */
  function FullWorkbook(c: Collections): (sheets: seq<Sheet>)
    ensures |sheets| == 5
    ensures forall k :: 0 <= k < 5 ==> sheets[k] == SheetOf(AllReports(c)[k])
  {
    Workbook(AllReports(c))
  }

  function Workbook(rs: seq<Report>): (sheets: seq<Sheet>)
    ensures |sheets| == |rs|
    ensures forall k :: 0 <= k < |rs| ==> sheets[k] == SheetOf(rs[k])
    decreases |rs|
  {
    if |rs| == 0 then [] else [SheetOf(rs[0])] + Workbook(rs[1..])
  }

  function SheetOf(r: Report): (sheet: Sheet)
    ensures sheet.name == SheetName(r.title) && sheet.header == r.columns && sheet.body == r.rows
  {
    Sheet(SheetName(r.title), r.columns, r.rows)
  }

  /** A report title is a word followed by " Report"; its sheet is named
      by the word. */
  lemma SheetNameOfTitle(title: string, word: string)
    requires ' ' !in word && title == word + " Report"
    ensures SheetName(title) == word
  {
    assert title == word + [' '] + "Report";
    Text.PrefixBeforeJoin(word, ' ', "Report");
  }

  /** The first words of the five report titles, in report order. */
  const SheetNames: seq<string> := ["Employees", "Customers", "Projects", "Inventory", "Expenses"]

  /** The combined workbook's sheets are named Employees, Customers,
      Projects, Inventory and Expenses. */
  lemma WorkbookSheetName(c: Collections, k: int)
    requires 0 <= k < 5
    ensures FullWorkbook(c)[k].name == SheetNames[k]
  {
    var rs := AllReports(c);
    if k == 0 {
      SheetNameOfTitle(rs[0].title, "Employees");
    } else if k == 1 {
      SheetNameOfTitle(rs[1].title, "Customers");
    } else if k == 2 {
      SheetNameOfTitle(rs[2].title, "Projects");
    } else if k == 3 {
      SheetNameOfTitle(rs[3].title, "Inventory");
    } else {
      SheetNameOfTitle(rs[4].title, "Expenses");
    }
  }

  /** No two sheets of the combined workbook share a name. */
  lemma WorkbookSheetNamesDistinct(c: Collections, k: int, l: int)
    requires 0 <= k < l < 5
    ensures FullWorkbook(c)[k].name != FullWorkbook(c)[l].name
  {
    SheetNamesDiffer(k, l);
    WorkbookSheetName(c, k);
    WorkbookSheetName(c, l);
  }

  lemma SheetNamesDiffer(k: int, l: int)
    requires 0 <= k < l < 5
    ensures SheetNames[k] != SheetNames[l]
  {
    // The second letters m, u, r, n, x already tell the five names apart.
    assert SheetNames[k][1] != SheetNames[l][1];
  }

  /** One report's part of the combined document: its title line, the
      table below it, and whether a page break follows the table. */
  datatype Section = Section(title: string, titleY: real, tableY: real,
                             header: seq<string>, body: seq<seq<Cell>>, newPageAfter: bool)

  const FirstTitleY: real := 48.0
  const PageBreakAbove: real := 250.0
  const NewPageY: real := 20.0

  /** The `exportFullPDF` loop. `tableEnd` stands for the table library:
      given a report and the offset its table starts at, it yields the
      table's `finalY`, any offset at all (a table that runs onto further
      pages ends on the last of them, possibly above where it started).
      Each title is written at the running offset `y`, its table starts 6
      below, and `y` becomes `finalY + 12`, or 20 on a new page when that
      exceeds 250, so no title is written below 250. */
  method LayoutFullPdf(reports: seq<Report>, tableEnd: (Report, real) -> real) returns (sections: seq<Section>)
    ensures |sections| == |reports|
    ensures forall i :: 0 <= i < |sections| ==>
      && sections[i].title == reports[i].title
      && sections[i].header == reports[i].columns
      && sections[i].body == reports[i].rows
      && sections[i].tableY == sections[i].titleY + 6.0
      && sections[i].titleY <= PageBreakAbove
      && (sections[i].newPageAfter <==> tableEnd(reports[i], sections[i].tableY) + 12.0 > PageBreakAbove)
    ensures |sections| > 0 ==> sections[0].titleY == FirstTitleY
    ensures forall i :: 0 <= i < |sections| - 1 ==>
      sections[i + 1].titleY ==
        if sections[i].newPageAfter then NewPageY else tableEnd(reports[i], sections[i].tableY) + 12.0
  {
    sections := [];
    var y := FirstTitleY;
    var i := 0;
    while i < |reports|
      invariant 0 <= i <= |reports|
      invariant |sections| == i
      invariant y <= PageBreakAbove
      invariant i == 0 ==> y == FirstTitleY
      invariant i > 0 ==>
        y == if sections[i - 1].newPageAfter then NewPageY else tableEnd(reports[i - 1], sections[i - 1].tableY) + 12.0
      invariant |sections| > 0 ==> sections[0].titleY == FirstTitleY
      invariant forall k :: 0 <= k < i ==>
        && sections[k].title == reports[k].title
        && sections[k].header == reports[k].columns
        && sections[k].body == reports[k].rows
        && sections[k].tableY == sections[k].titleY + 6.0
        && sections[k].titleY <= PageBreakAbove
        && (sections[k].newPageAfter <==> tableEnd(reports[k], sections[k].tableY) + 12.0 > PageBreakAbove)
      invariant forall k :: 0 <= k < i - 1 ==>
        sections[k + 1].titleY ==
          if sections[k].newPageAfter then NewPageY else tableEnd(reports[k], sections[k].tableY) + 12.0
    {
      var titleY := y;
      var tableY := y + 6.0;
      var finalY := tableEnd(reports[i], tableY);
      y := finalY + 12.0;
      var newPage := y > PageBreakAbove;
      if newPage {
        y := NewPageY;
      }
      sections := sections + [Section(reports[i].title, titleY, tableY, reports[i].columns, reports[i].rows, newPage)];
      i := i + 1;
    }
  }

  /** `exportFullPDF`: the five reports as sections, in the fixed order, each
      drawing its report's columns and rows, laid out by the page-break rule. */
  method ExportFullPdf(c: Collections, tableEnd: (Report, real) -> real) returns (sections: seq<Section>)
    ensures |sections| == 5
    ensures sections[0].title == "Employees Report" && sections[1].title == "Customers Report"
    ensures sections[2].title == "Projects Report" && sections[3].title == "Inventory Report"
    ensures sections[4].title == "Expenses Report"
    ensures forall k :: 0 <= k < 5 ==>
      && sections[k].header == AllReports(c)[k].columns
      && sections[k].body == AllReports(c)[k].rows
      && |sections[k].body| == AllReports(c)[k].count
    ensures forall k :: 0 <= k < 5 ==> sections[k].titleY <= PageBreakAbove
    ensures sections[0].titleY == FirstTitleY
    ensures forall k :: 0 <= k < 5 ==> sections[k].tableY == sections[k].titleY + 6.0
    ensures forall k :: 0 <= k < 5 ==>
      (sections[k].newPageAfter <==> tableEnd(AllReports(c)[k], sections[k].tableY) + 12.0 > PageBreakAbove)
    ensures forall k :: 0 <= k < 4 ==>
      sections[k + 1].titleY ==
        if sections[k].newPageAfter then NewPageY else tableEnd(AllReports(c)[k], sections[k].tableY) + 12.0
  {
    sections := LayoutFullPdf(AllReports(c), tableEnd);
  }
}

=== FILE: scenarios.dfy ===
/** Properties that cross the client/server boundary: what an operator
    sees after a server route runs and the list is fetched again. */
module Scenarios {
  import opened Wrappers
  import opened Records
  import Seqs
  import Store
  import Server
  import Views
  import Expenses
  import Employees
  import Reports
  import Text

  /** Recording an expense and re-fetching the list raises the total card
      by its amount, and the pending card too when its category is
      "pending". */
  lemma {:induction false} NewExpenseReachesCards(db: Server.Db, f: ExpenseFields, now: Timestamp)
    ensures Expenses.Total(Server.ListExpenses(Server.CreateExpense(db, f, now).0))
            == Expenses.Total(Server.ListExpenses(db)) + Num(f.amount)
    ensures Expenses.Pending(Server.ListExpenses(Server.CreateExpense(db, f, now).0))
            == Expenses.Pending(Server.ListExpenses(db)) + (if f.category == Some("pending") then Num(f.amount) else 0.0)
  {
    var (after, x) := Server.CreateExpense(db, f, now);
    var s := db.expenses.rows;
    assert after.expenses.rows == s + [x];
    Seqs.SumPermutation(Server.ListExpenses(after), s + [x], Amount);
    Seqs.SumPermutation(Server.ListExpenses(db), s, Amount);
    Seqs.SumAppend(s, [x], Amount);
    Seqs.FilterPermutation(Server.ListExpenses(after), s + [x], IsPending);
    Seqs.FilterPermutation(Server.ListExpenses(db), s, IsPending);
    Seqs.SumPermutation(Seqs.Filter(Server.ListExpenses(after), IsPending), Seqs.Filter(s + [x], IsPending), Amount);
    Seqs.SumPermutation(Seqs.Filter(Server.ListExpenses(db), IsPending), Seqs.Filter(s, IsPending), Amount);
    Seqs.FilterAppend(s, x, IsPending);
    Seqs.SumAppend(Seqs.Filter(s, IsPending), [x], Amount);
  }

  /** A project created after every logged activity heads the activity
      feed, under its own name, whenever the store accepts its dates. */
  lemma {:induction false} NewProjectHeadsFeed(db: Server.Db, f: ProjectFields, now: Timestamp, isDate: string -> bool)
    requires forall i :: 0 <= i < |db.activities.rows| ==> db.activities.rows[i].createdAt < now
    ensures Server.CreateProject(db, f, now, isDate).Ok? ==>
      && |Server.Activities(Server.CreateProject(db, f, now, isDate).value.0)| > 0
      && Server.Activities(Server.CreateProject(db, f, now, isDate).value.0)[0]
         == Row(db.activities.nextId, now, ActivityFields(Server.ProjectCreated, f.name))
  {
    var created := Server.CreateProject(db, f, now, isDate);
    if created.Ok? {
      var x := Row(db.activities.nextId, now, ActivityFields(Server.ProjectCreated, f.name));
      var acts := created.value.0.activities.rows;
      assert acts == db.activities.rows + [x];
      var feed := Server.Activities(created.value.0);
      assert |feed| > 0;
      assert x in acts by { assert acts[|acts| - 1] == x; }
      assert feed[0].createdAt >= now by {
        if x in feed {
          var j :| 0 <= j < |feed| && feed[j] == x;
          assert feed[0].createdAt >= feed[j].createdAt;
        }
      }
      var k :| 0 <= k < |acts| && acts[k] == feed[0];
      if k < |db.activities.rows| {
        assert acts[k] == db.activities.rows[k];
      }
    }
  }

  /** The server has no update route, so saving an edit gets a 404 and the
      stored record stays as it was, whatever the request carried. The
      expenses view never looks at the status: it clears the form and
      reloads without a word, and the edit is lost. */
  lemma ExpenseEditSilentlyLost(db: Server.Db, v: Views.View<Expenses.ExpenseForm>, idText: string,
                                route: Server.Route, now: Timestamp, hash: string -> string, isDate: string -> bool)
    requires Views.Editing(v)
    requires v.form.title.Str? && !Text.IsBlank(v.form.title.s) && Views.Truthy(v.form.amount)
    ensures Server.Handler(Server.Put, Server.MemberPath(Server.Expenses, idText)).None?
    ensures Server.Serve(db, Server.Put, Server.MemberPath(Server.Expenses, idText), route, now, hash, isDate) == db
    ensures Expenses.Submit(v, Views.Response(404)).request == Some(Views.Put(v.editingId.value, v.form))
    ensures Expenses.Submit(v, Views.Response(404)).alert.None?
    ensures Expenses.Submit(v, Views.Response(404)).view.form == Expenses.EmptyForm
  {
  }

  /** The employees view checks the status: the same 404 raises its alert
      and keeps the form open with the edit in it. */
  lemma EmployeeEditRefused(v: Views.View<Employees.EmployeeForm>, idText: string)
    requires Views.Editing(v)
    requires v.form.name.Str? && !Text.IsBlank(v.form.name.s)
    ensures Server.Handler(Server.Put, Server.MemberPath(Server.Employees, idText)).None?
    ensures Employees.Submit(v, Views.Response(404)).alert == Some(Employees.SaveFailed)
    ensures Employees.Submit(v, Views.Response(404)).view == v
  {
  }

  /** Deleting a stored item and re-fetching shrinks the inventory report
      by one row. */
  lemma DeletedItemLeavesReport(db: Server.Db, id: int, c: Reports.Collections)
    requires Server.Valid(db) && Server.Holds(db, Server.Inventory, id)
    ensures Server.Remove(db, Server.Inventory, Some(id)).Ok?
    ensures Reports.AllReports(c.(inventory := Server.ListInventory(Server.Remove(db, Server.Inventory, Some(id)).value)))[3].count
            == Reports.AllReports(c.(inventory := Server.ListInventory(db)))[3].count - 1
  {
  }
}

=== FILE: seqs.dfy ===
/** Order-preserving filtering and summation over sequences: the two
    collection operations (`Array.prototype.filter` and a `reduce` that adds)
    every view and report of the application is built from. */
module Seqs {

  /** `idx` places the elements of `a`, in order, at strictly increasing
      positions of `b`. */
  ghost predicate Embeds<T>(idx: seq<int>, a: seq<T>, b: seq<T>) {
    && |idx| == |a|
    && (forall k :: 0 <= k < |idx| ==> 0 <= idx[k] < |b| && a[k] == b[idx[k]])
    && (forall k, l :: 0 <= k < l < |idx| ==> idx[k] < idx[l])
  }

  /** `a` is obtained from `b` by deleting elements: nothing added, order kept. */
  ghost predicate IsSubsequence<T>(a: seq<T>, b: seq<T>) {
    exists idx :: Embeds(idx, a, b)
  }

  /** The elements of `s` satisfying `p`, in their original order. */
  function Filter<T>(s: seq<T>, p: T -> bool): (r: seq<T>)
    ensures |r| <= |s|
    ensures forall i :: 0 <= i < |r| ==> r[i] in s && p(r[i])
    ensures forall i :: 0 <= i < |s| && p(s[i]) ==> s[i] in r
    decreases |s|
  {
    if |s| == 0 then []
    else if p(s[0]) then [s[0]] + Filter(s[1..], p)
    else Filter(s[1..], p)
  }

  /** A subsequence of `b` is also one of `b` with an element put in front. */
  lemma SubsequenceOfLonger<T>(a: seq<T>, b: seq<T>, x: T)
    requires IsSubsequence(a, b)
    ensures IsSubsequence(a, [x] + b)
  {
    var idx :| Embeds(idx, a, b);
    var shifted := seq(|idx|, k requires 0 <= k < |idx| => idx[k] + 1);
    assert Embeds(shifted, a, [x] + b);
  }

  /** Putting the same element in front of both sides keeps a subsequence. */
  lemma SubsequenceCons<T>(a: seq<T>, b: seq<T>, x: T)
    requires IsSubsequence(a, b)
    ensures IsSubsequence([x] + a, [x] + b)
  {
    var idx :| Embeds(idx, a, b);
    var shifted := [0] + seq(|idx|, k requires 0 <= k < |idx| => idx[k] + 1);
    assert Embeds(shifted, [x] + a, [x] + b);
  }

  /** Filtering keeps relative order and adds nothing. */
  lemma {:induction false} FilterIsSubsequence<T>(s: seq<T>, p: T -> bool)
    ensures IsSubsequence(Filter(s, p), s)
    decreases |s|
  {
    if |s| == 0 {
      assert Embeds([], Filter(s, p), s);
    } else {
      FilterIsSubsequence(s[1..], p);
      assert s == [s[0]] + s[1..];
      if p(s[0]) {
        SubsequenceCons(Filter(s[1..], p), s[1..], s[0]);
      } else {
        SubsequenceOfLonger(Filter(s[1..], p), s[1..], s[0]);
      }
    }
  }

  /** Filtering keeps every occurrence of a satisfying element and drops
      every occurrence of the others: the result is exactly the satisfying
      part of `s`, counted with multiplicity. */
  lemma {:induction false} FilterCounts<T>(s: seq<T>, p: T -> bool, x: T)
    ensures multiset(Filter(s, p))[x] == if p(x) then multiset(s)[x] else 0
    decreases |s|
  {
    if |s| > 0 {
      FilterCounts(s[1..], p, x);
      assert s == [s[0]] + s[1..];
    }
  }
  /** `FilterCounts` for every element at once: the filtered multiset is the
      input's restricted to the elements that pass. */
  lemma FilterMultiset<T>(s: seq<T>, p: T -> bool)
    ensures forall x :: multiset(Filter(s, p))[x] == if p(x) then multiset(s)[x] else 0
  {
    forall x ensures multiset(Filter(s, p))[x] == if p(x) then multiset(s)[x] else 0 {
      FilterCounts(s, p, x);
    }
  }


  /** Adding `f` over `s`, starting from 0 (a `reduce((sum, e) => sum + f(e), 0)`). */
  function Sum<T>(s: seq<T>, f: T -> real): real
    decreases |s|
  {
    if |s| == 0 then 0.0 else f(s[0]) + Sum(s[1..], f)
  }

  lemma {:induction false} SumAppend<T>(a: seq<T>, b: seq<T>, f: T -> real)
    ensures Sum(a + b, f) == Sum(a, f) + Sum(b, f)
    decreases |a|
  {
    if |a| == 0 {
      assert a + b == b;
    } else {
      assert (a + b)[0] == a[0];
      assert (a + b)[1..] == a[1..] + b;
      SumAppend(a[1..], b, f);
    }
  }

  /** A sum of non-negative terms is non-negative. */
  lemma {:induction false} SumNonNegative<T>(s: seq<T>, f: T -> real)
    requires forall i :: 0 <= i < |s| ==> f(s[i]) >= 0.0
    ensures Sum(s, f) >= 0.0
    decreases |s|
  {
    if |s| > 0 {
      SumNonNegative(s[1..], f);
    }
  }

  /** Summing over the elements that satisfy `p` and over those that
      satisfy its complement `q` adds up to the sum over all of `s`. */
  lemma {:induction false} SumSplits<T>(s: seq<T>, f: T -> real, p: T -> bool, q: T -> bool)
    requires forall i :: 0 <= i < |s| ==> q(s[i]) == !p(s[i])
    ensures Sum(Filter(s, p), f) + Sum(Filter(s, q), f) == Sum(s, f)
    decreases |s|
  {
    if |s| > 0 {
      SumSplits(s[1..], f, p, q);
    }
  }

  /** Two filters selecting disjoint elements of a sequence of non-negative
      terms never sum to more than the whole sequence. */
  lemma {:induction false} DisjointSumsBounded<T>(s: seq<T>, f: T -> real, p: T -> bool, q: T -> bool)
    requires forall i :: 0 <= i < |s| ==> !(p(s[i]) && q(s[i]))
    requires forall i :: 0 <= i < |s| ==> f(s[i]) >= 0.0
    ensures Sum(Filter(s, p), f) + Sum(Filter(s, q), f) <= Sum(s, f)
    decreases |s|
  {
    if |s| > 0 {
      DisjointSumsBounded(s[1..], f, p, q);
    }
  }

  /** Taking the term at `k` out of a sequence takes its value out of the
      sum. */
  lemma {:induction false} SumWithout<T>(b: seq<T>, k: int, f: T -> real)
    requires 0 <= k < |b|
    ensures Sum(b, f) == f(b[k]) + Sum(b[..k] + b[k + 1..], f)
  {
    var pre, post := b[..k], b[k + 1..];
    assert b == pre + ([b[k]] + post);
    SumAppend(pre, [b[k]] + post, f);
    SumAppend(pre, post, f);
    assert ([b[k]] + post)[1..] == post;
  }

  /** Taking the element at `k` out of a sequence takes one copy of it out
      of the multiset. */
  lemma {:induction false} MultisetWithout<T>(b: seq<T>, k: int)
    requires 0 <= k < |b|
    ensures multiset(b[..k] + b[k + 1..]) == multiset(b) - multiset{b[k]}
  {
    assert b == b[..k] + [b[k]] + b[k + 1..];
  }

  /** A sum does not depend on the order of its terms. */
  lemma {:induction false} SumPermutation<T>(a: seq<T>, b: seq<T>, f: T -> real)
    requires multiset(a) == multiset(b)
    ensures Sum(a, f) == Sum(b, f)
    decreases |a|
  {
    if |a| > 0 {
      assert a[0] in multiset(b);
      var k :| 0 <= k < |b| && b[k] == a[0];
      SumWithout(b, k, f);
      MultisetWithout(b, k);
      assert a == [a[0]] + a[1..];
      assert multiset(a[1..]) == multiset(a) - multiset{a[0]};
      SumPermutation(a[1..], b[..k] + b[k + 1..], f);
    }
  }

  /** Filtering two orderings of the same elements gives two orderings of
      the same elements. */
  lemma FilterPermutation<T>(a: seq<T>, b: seq<T>, p: T -> bool)
    requires multiset(a) == multiset(b)
    ensures multiset(Filter(a, p)) == multiset(Filter(b, p))
  {
    forall x ensures multiset(Filter(a, p))[x] == multiset(Filter(b, p))[x] {
      FilterCounts(a, p, x);
      FilterCounts(b, p, x);
    }
  }

  /** Filtering a sequence extended by one element. */
  lemma {:induction false} FilterAppend<T>(s: seq<T>, x: T, p: T -> bool)
    ensures Filter(s + [x], p) == if p(x) then Filter(s, p) + [x] else Filter(s, p)
    decreases |s|
  {
    if |s| == 0 {
      assert s + [x] == [x];
      assert [x][1..] == [];
    } else {
      FilterAppend(s[1..], x, p);
      assert (s + [x])[1..] == s[1..] + [x];
    }
  }

  /** Filtering by a test no element passes leaves nothing. */
  lemma {:induction false} FilterNone<T>(s: seq<T>, p: T -> bool)
    ensures (forall i :: 0 <= i < |s| ==> !p(s[i])) ==> Filter(s, p) == []
    decreases |s|
  {
    if |s| > 0 {
      FilterNone(s[1..], p);
      if forall i :: 0 <= i < |s| ==> !p(s[i]) {
        assert forall i :: 0 <= i < |s[1..]| ==> !p(s[1..][i]) by {
          forall i | 0 <= i < |s[1..]| ensures !p(s[1..][i]) {
            assert s[1..][i] == s[i + 1];
          }
        }
      }
    }
  }
}

=== FILE: server.dfy ===
/** The REST server: its routes over the record store, the activity rows
    three of them write as a side effect, and the login decision. Password
    hashing and token signing are parameters, so the model fixes only what
    the server does with their answers. */
module Server {
  import opened Wrappers
  import opened Records
  import Store

  /** The database: one table per entity. */
  datatype Db = Db(
    users: Store.Table<UserFields>,
    employees: Store.Table<EmployeeFields>,
    customers: Store.Table<CustomerFields>,
    projects: Store.Table<ProjectFields>,
    inventory: Store.Table<ItemFields>,
    expenses: Store.Table<ExpenseFields>,
    activities: Store.Table<ActivityFields>)

  /** The collections an operator manages through the client. */
  datatype Collection = Employees | Customers | Projects | Inventory | Expenses

  /** The email column is unique. */
  predicate UniqueEmails(rows: seq<User>) {
    forall i, j :: 0 <= i < j < |rows| ==> rows[i].fields.email != rows[j].fields.email
  }

  predicate Valid(db: Db) {
    && Store.WellFormed(db.users) && Store.WellFormed(db.employees)
    && Store.WellFormed(db.customers) && Store.WellFormed(db.projects)
    && Store.WellFormed(db.inventory) && Store.WellFormed(db.expenses)
    && Store.WellFormed(db.activities)
    && UniqueEmails(db.users.rows)
  }

  const ProjectCreated := "New project created"
  const ItemAdded := "New inventory item added"
  const ExpenseRecorded := "New expense recorded"

  /** The entry appended to the activity log, stamped `now`. */
  function Logged(db: Db, now: Timestamp, description: string, bold: Option<string>): (r: Db)
    ensures r == db.(activities := r.activities)
    ensures r.activities.rows == db.activities.rows + [Row(db.activities.nextId, now, ActivityFields(description, bold))]
    ensures Valid(db) ==> Valid(r) && Store.Keeps(db.activities, r.activities)
  {
    db.(activities := Store.Insert(db.activities, now, ActivityFields(description, bold)).0)
  }

  /** `POST /employees`: stores the employee and logs nothing. */
  function CreateEmployee(db: Db, f: EmployeeFields, now: Timestamp): (r: (Db, Employee))
    ensures r.0 == db.(employees := r.0.employees)
    ensures r.0.employees.rows == db.employees.rows + [r.1]
    ensures r.1.fields == f && r.1.createdAt == now
    ensures Valid(db) ==> Valid(r.0) && !Store.HasId(db.employees.rows, r.1.id)
  {
    var (t, row) := Store.Insert(db.employees, now, f);
    (db.(employees := t), row)
  }

  /** `POST /customers`: stores the customer and logs nothing. */
  function CreateCustomer(db: Db, f: CustomerFields, now: Timestamp): (r: (Db, Customer))
    ensures r.0 == db.(customers := r.0.customers)
    ensures r.0.customers.rows == db.customers.rows + [r.1]
    ensures r.1.fields == f && r.1.createdAt == now
    ensures Valid(db) ==> Valid(r.0) && !Store.HasId(db.customers.rows, r.1.id)
  {
    var (t, row) := Store.Insert(db.customers, now, f);
    (db.(customers := t), row)
  }

  /** Whether `new Date(d)` is a date the store accepts. The empty text is
      always an invalid date; `None` stands for JSON `null`, which is the
      epoch and so a valid date; any other text is valid when the date
      parser, a parameter, accepts it. */
  predicate DateAccepted(d: Option<string>, isDate: string -> bool) {
    d.None? || (d.value != "" && isDate(d.value))
  }

  /** `POST /projects`: stores the project, then logs one activity naming
      it. An invalid start or end date, such as the empty text the client's
      blank form sends, makes the store throw before anything is written. */
  function CreateProject(db: Db, f: ProjectFields, now: Timestamp, isDate: string -> bool)
    : (r: Result<(Db, Project), Store.StoreError>)
    ensures r.Err? <==> !DateAccepted(f.startDate, isDate) || !DateAccepted(f.endDate, isDate)
    ensures r.Err? ==> r.error == Store.InvalidDate
    ensures f.startDate == Some("") || f.endDate == Some("") ==> r == Err(Store.InvalidDate)
    ensures r.Ok? ==> r.value.0 == db.(projects := r.value.0.projects, activities := r.value.0.activities)
    ensures r.Ok? ==> r.value.0.projects.rows == db.projects.rows + [r.value.1]
    ensures r.Ok? ==> r.value.1.fields == f && r.value.1.createdAt == now
    ensures r.Ok? ==>
      r.value.0.activities.rows == db.activities.rows + [Row(db.activities.nextId, now, ActivityFields(ProjectCreated, f.name))]
    ensures r.Ok? && Valid(db) ==> Valid(r.value.0) && !Store.HasId(db.projects.rows, r.value.1.id)
  {
    if !DateAccepted(f.startDate, isDate) || !DateAccepted(f.endDate, isDate) then Err(Store.InvalidDate)
    else
      var (t, row) := Store.Insert(db.projects, now, f);
      Ok((Logged(db.(projects := t), now, ProjectCreated, f.name), row))
  }

  /** `POST /inventory`: stores the item, then logs one activity naming it. */
  function CreateItem(db: Db, f: ItemFields, now: Timestamp): (r: (Db, Item))
    ensures r.0 == db.(inventory := r.0.inventory, activities := r.0.activities)
    ensures r.0.inventory.rows == db.inventory.rows + [r.1]
    ensures r.1.fields == f && r.1.createdAt == now
    ensures r.0.activities.rows == db.activities.rows + [Row(db.activities.nextId, now, ActivityFields(ItemAdded, f.name))]
    ensures Valid(db) ==> Valid(r.0) && !Store.HasId(db.inventory.rows, r.1.id)
  {
    var (t, row) := Store.Insert(db.inventory, now, f);
    (Logged(db.(inventory := t), now, ItemAdded, f.name), row)
  }

  /** `POST /expenses`: stores the expense, then logs one activity naming
      it by its title. */
  function CreateExpense(db: Db, f: ExpenseFields, now: Timestamp): (r: (Db, Expense))
    ensures r.0 == db.(expenses := r.0.expenses, activities := r.0.activities)
    ensures r.0.expenses.rows == db.expenses.rows + [r.1]
    ensures r.1.fields == f && r.1.createdAt == now
    ensures r.0.activities.rows == db.activities.rows + [Row(db.activities.nextId, now, ActivityFields(ExpenseRecorded, f.title))]
    ensures Valid(db) ==> Valid(r.0) && !Store.HasId(db.expenses.rows, r.1.id)
  {
    var (t, row) := Store.Insert(db.expenses, now, f);
    (Logged(db.(expenses := t), now, ExpenseRecorded, f.title), row)
  }

  /** Whether collection `c` holds a row with identifier `id`. */
  predicate Holds(db: Db, c: Collection, id: int) {
    match c
    case Employees => Store.HasId(db.employees.rows, id)
    case Customers => Store.HasId(db.customers.rows, id)
    case Projects => Store.HasId(db.projects.rows, id)
    case Inventory => Store.HasId(db.inventory.rows, id)
    case Expenses => Store.HasId(db.expenses.rows, id)
  }

  function Size(db: Db, c: Collection): nat {
    match c
    case Employees => |db.employees.rows|
    case Customers => |db.customers.rows|
    case Projects => |db.projects.rows|
    case Inventory => |db.inventory.rows|
    case Expenses => |db.expenses.rows|
  }

  /** Every table other than collection `c`'s is the same in `a` and `b`. */
  predicate OnlyTouches(a: Db, b: Db, c: Collection) {
    && a.users == b.users && a.activities == b.activities
    && (c != Employees ==> a.employees == b.employees)
    && (c != Customers ==> a.customers == b.customers)
    && (c != Projects ==> a.projects == b.projects)
    && (c != Inventory ==> a.inventory == b.inventory)
    && (c != Expenses ==> a.expenses == b.expenses)
  }

  function Lift<T>(r: Result<T, Store.StoreError>, put: T -> Db): Result<Db, Store.StoreError> {
    match r
    case Ok(t) => Ok(put(t))
    case Err(e) => Err(e)
  }

  /** `DELETE /<collection>/:id`: an identifier that does not parse (`None`)
      or that no row holds makes the store throw, and nothing changes;
      otherwise that one row goes, and nothing else changes. */
  function Remove(db: Db, c: Collection, id: Option<int>): (r: Result<Db, Store.StoreError>)
    ensures id.None? ==> r == Err(Store.InvalidId)
    ensures id.Some? ==> (r.Err? <==> !Holds(db, c, id.value))
    ensures r.Ok? ==> OnlyTouches(db, r.value, c) && !Holds(r.value, c, id.value)
    ensures r.Ok? && Valid(db) ==> Valid(r.value) && Size(r.value, c) == Size(db, c) - 1
    ensures r.Ok? && c == Employees ==> r.value.employees == Store.Delete(db.employees, id.value).value
    ensures r.Ok? && c == Customers ==> r.value.customers == Store.Delete(db.customers, id.value).value
    ensures r.Ok? && c == Projects ==> r.value.projects == Store.Delete(db.projects, id.value).value
    ensures r.Ok? && c == Inventory ==> r.value.inventory == Store.Delete(db.inventory, id.value).value
    ensures r.Ok? && c == Expenses ==> r.value.expenses == Store.Delete(db.expenses, id.value).value
  {
    if id.None? then Err(Store.InvalidId)
    else
      var k := id.value;
      match c
      case Employees => Lift(Store.Delete(db.employees, k), t => db.(employees := t))
      case Customers => Lift(Store.Delete(db.customers, k), t => db.(customers := t))
      case Projects => Lift(Store.Delete(db.projects, k), t => db.(projects := t))
      case Inventory => Lift(Store.Delete(db.inventory, k), t => db.(inventory := t))
      case Expenses => Lift(Store.Delete(db.expenses, k), t => db.(expenses := t))
  }

  /** `GET /employees` and `/customers`: every row, in an order the server
      does not fix. */
  function ListEmployees(db: Db): (r: seq<Employee>)
    ensures |r| == |db.employees.rows| && multiset(r) == multiset(db.employees.rows)
  {
    db.employees.rows
  }

  function ListCustomers(db: Db): (r: seq<Customer>)
    ensures |r| == |db.customers.rows| && multiset(r) == multiset(db.customers.rows)
  {
    db.customers.rows
  }

  /** `GET /projects`, `/inventory` and `/expenses`: every row, newest first. */
  function ListProjects(db: Db): (r: seq<Project>)
    ensures Store.NewestFirst(r) && multiset(r) == multiset(db.projects.rows)
  {
    Store.ByNewest(db.projects.rows)
  }

  function ListInventory(db: Db): (r: seq<Item>)
    ensures Store.NewestFirst(r) && multiset(r) == multiset(db.inventory.rows)
  {
    Store.ByNewest(db.inventory.rows)
  }

  function ListExpenses(db: Db): (r: seq<Expense>)
    ensures Store.NewestFirst(r) && multiset(r) == multiset(db.expenses.rows)
  {
    Store.ByNewest(db.expenses.rows)
  }

  /** `GET /activities`: the ten newest log entries, newest first. */
  function Activities(db: Db): (r: seq<Activity>)
    ensures |r| == if |db.activities.rows| < Store.ActivityLimit then |db.activities.rows| else Store.ActivityLimit
    ensures Store.NewestFirst(r)
    ensures forall i :: 0 <= i < |r| ==> r[i] in db.activities.rows
    ensures multiset(r) <= multiset(db.activities.rows)
    ensures forall a, i :: a in db.activities.rows && a !in r && 0 <= i < |r| ==> a.createdAt <= r[i].createdAt
  {
    Store.Recent(db.activities.rows)
  }

  // ---- authentication ----

  const InvalidCredentials := "Invalid email or password"

  datatype LoginReply =
    | Signed(token: string, name: Option<string>)
    | Rejected(status: int, message: string)

  /** `findUnique({ where: { email } })`. */
  function FindUser(rows: seq<User>, email: string): (r: Option<User>)
    ensures r.Some? ==> r.value in rows && r.value.fields.email == email
    ensures r.None? <==> forall i :: 0 <= i < |rows| ==> rows[i].fields.email != email
  {
    if |rows| == 0 then None
    else if rows[0].fields.email == email then Some(rows[0])
    else FindUser(rows[1..], email)
  }

  /** `POST /login`: an unknown email and a wrong password get the same 401
      reply; a match gets a token signed over the user's id and email, and
      the user's name. */
  function Login(db: Db, email: string, password: string,
                 verify: (string, string) -> bool, sign: (int, string) -> string): (r: LoginReply)
    requires UniqueEmails(db.users.rows)
    ensures r.Rejected? ==> r == Rejected(401, InvalidCredentials)
    ensures r.Signed? <==> exists i :: 0 <= i < |db.users.rows| && db.users.rows[i].fields.email == email
                                       && verify(password, db.users.rows[i].fields.passwordHash)
    ensures forall i :: 0 <= i < |db.users.rows| && db.users.rows[i].fields.email == email && r.Signed? ==>
              r == Signed(sign(db.users.rows[i].id, email), db.users.rows[i].fields.name)
  {
    match FindUser(db.users.rows, email)
    case None => Rejected(401, InvalidCredentials)
    case Some(user) =>
      if !verify(password, user.fields.passwordHash) then Rejected(401, InvalidCredentials)
      else Signed(sign(user.id, user.fields.email), user.fields.name)
  }

  /** `POST /register`: stores the hashed password; an email already
      registered makes the store throw, and nothing changes. */
  function Register(db: Db, name: Option<string>, email: string, password: string,
                    hash: string -> string, now: Timestamp): (r: Result<Db, Store.StoreError>)
    ensures r.Err? <==> exists i :: 0 <= i < |db.users.rows| && db.users.rows[i].fields.email == email
    ensures r.Err? ==> r.error == Store.Conflict
    ensures r.Ok? ==> r.value == db.(users := r.value.users)
    ensures r.Ok? ==> r.value.users.rows == db.users.rows + [Row(db.users.nextId, now, UserFields(name, email, hash(password)))]
    ensures r.Ok? && Valid(db) ==> Valid(r.value)
  {
    if FindUser(db.users.rows, email).Some? then Err(Store.Conflict)
    else Ok(db.(users := Store.Insert(db.users, now, UserFields(name, email, hash(password))).0))
  }

  /** Once registered, the same email and password log in, provided the
      verifier accepts what the hasher produced. */
  lemma RegisterThenLogin(db: Db, name: Option<string>, email: string, password: string,
                          hash: string -> string, verify: (string, string) -> bool,
                          sign: (int, string) -> string, now: Timestamp)
    requires Valid(db) && Register(db, name, email, password, hash, now).Ok?
    requires verify(password, hash(password))
    ensures Valid(Register(db, name, email, password, hash, now).value)
    ensures Login(Register(db, name, email, password, hash, now).value, email, password, verify, sign)
            == Signed(sign(db.users.nextId, email), name)
  {
    var after := Register(db, name, email, password, hash, now).value;
    var n := |db.users.rows|;
    assert after.users.rows[n].fields.email == email;
  }

  // ---- routing ----

  datatype Verb = Get | Post | Put | Delete

  datatype Path =
    | Root | RegisterPath | LoginPath | ActivitiesPath
    | ListPath(collection: Collection)
    | MemberPath(of: Collection, id: string)

  datatype Endpoint =
    | Health | SignUp | SignIn | RecentActivity
    | ListOf(listed: Collection) | CreateIn(created: Collection) | DeleteIn(deleted: Collection)

  /** Which handler answers a request; `None` is express's 404. There is no
      update handler, so every `PUT` the client sends is a 404 and changes
      nothing. */
  function Handler(v: Verb, p: Path): (r: Option<Endpoint>)
    ensures v == Put ==> r.None?
    ensures r.Some? && r.value.DeleteIn? ==> v == Delete && p.MemberPath? && p.of == r.value.deleted
    ensures p.MemberPath? ==> (r.Some? <==> v == Delete)
    ensures p.ListPath? ==> (r.Some? <==> v == Get || v == Post)
  {
    match (v, p)
    case (Get, Root) => Some(Health)
    case (Post, RegisterPath) => Some(SignUp)
    case (Post, LoginPath) => Some(SignIn)
    case (Get, ActivitiesPath) => Some(RecentActivity)
    case (Get, ListPath(c)) => Some(ListOf(c))
    case (Post, ListPath(c)) => Some(CreateIn(c))
    case (Delete, MemberPath(c, _)) => Some(DeleteIn(c))
    case _ => None
  }

  /** A request with its payload already parsed. */
  datatype Route =
    | NewEmployee(employee: EmployeeFields)
    | NewCustomer(customer: CustomerFields)
    | NewProject(project: ProjectFields)
    | NewItem(item: ItemFields)
    | NewExpense(expense: ExpenseFields)
    | DeleteFrom(collection: Collection, id: Option<int>)
    | Enrol(name: Option<string>, email: string, password: string)
    | ReadOnly

  /** The database after a route runs; a route the store refuses leaves it
      as it was. Only the three logging routes touch the activity log, each
      by one entry, and only registration touches the users. */
  function Apply(db: Db, route: Route, now: Timestamp, hash: string -> string, isDate: string -> bool): (r: Db)
    ensures route.ReadOnly? ==> r == db
    ensures !route.Enrol? ==> r.users == db.users
    ensures !(route.NewProject? || route.NewItem? || route.NewExpense?) ==> r.activities == db.activities
    ensures |db.activities.rows| <= |r.activities.rows| <= |db.activities.rows| + 1
    ensures route.DeleteFrom? ==> OnlyTouches(db, r, route.collection)
  {
    match route
    case NewEmployee(f) => CreateEmployee(db, f, now).0
    case NewCustomer(f) => CreateCustomer(db, f, now).0
    case NewProject(f) => (match CreateProject(db, f, now, isDate) case Ok(p) => p.0 case Err(_) => db)
    case NewItem(f) => CreateItem(db, f, now).0
    case NewExpense(f) => CreateExpense(db, f, now).0
    case DeleteFrom(c, id) => (match Remove(db, c, id) case Ok(d) => d case Err(_) => db)
    case Enrol(name, email, password) =>
      (match Register(db, name, email, password, hash, now) case Ok(d) => d case Err(_) => db)
    case ReadOnly => db
  }

  /** Whether a parsed request is the one an endpoint reads: a create carries
      the fields of its own collection, a delete names the collection of its
      path, registration carries the new account, and every other endpoint
      only reads. */
  predicate Fits(e: Endpoint, route: Route) {
    match e
    case CreateIn(c) =>
      || (c == Employees && route.NewEmployee?) || (c == Customers && route.NewCustomer?)
      || (c == Projects && route.NewProject?) || (c == Inventory && route.NewItem?)
      || (c == Expenses && route.NewExpense?)
    case DeleteIn(c) => route.DeleteFrom? && route.collection == c
    case SignUp => route.Enrol?
    case _ => route.ReadOnly?
  }

  /** A request as the server sees it: a verb and path no handler answers is
      a 404 and writes nothing; otherwise the handler runs the route. Reads,
      logins and every `PUT` leave the database as it was. */
  function Serve(db: Db, v: Verb, p: Path, route: Route, now: Timestamp,
                 hash: string -> string, isDate: string -> bool): (r: Db)
    requires Handler(v, p).Some? ==> Fits(Handler(v, p).value, route)
    ensures Handler(v, p).None? ==> r == db
    ensures v == Get || v == Put ==> r == db
    ensures p == LoginPath ==> r == db
    ensures r != db ==> (v == Post && !p.MemberPath?) || (v == Delete && p.MemberPath?)
    ensures Handler(v, p).Some? ==> r == Apply(db, route, now, hash, isDate)
  {
    match Handler(v, p)
    case None => db
    case Some(_) => Apply(db, route, now, hash, isDate)
  }

  /** No route rewrites a stored record, the activity log only grows, and
      no user is ever removed. */
  lemma {:induction false} RoutesOnlyAddOrRemove(db: Db, route: Route, now: Timestamp,
                                                 hash: string -> string, isDate: string -> bool)
    requires Valid(db)
    ensures Valid(Apply(db, route, now, hash, isDate))
    ensures db.activities.rows <= Apply(db, route, now, hash, isDate).activities.rows
    ensures db.users.rows <= Apply(db, route, now, hash, isDate).users.rows
    ensures Store.Keeps(db.employees, Apply(db, route, now, hash, isDate).employees)
    ensures Store.Keeps(db.customers, Apply(db, route, now, hash, isDate).customers)
    ensures Store.Keeps(db.projects, Apply(db, route, now, hash, isDate).projects)
    ensures Store.Keeps(db.inventory, Apply(db, route, now, hash, isDate).inventory)
    ensures Store.Keeps(db.expenses, Apply(db, route, now, hash, isDate).expenses)
  {
  }
}

=== FILE: store.dfy ===
/** The record store behind the server: one table per entity, each an
    ordered sequence of rows with store-assigned identifiers, and the
    newest-first ordering the list routes ask for. */
module Store {
  import opened Wrappers
  import opened Records
  import Seqs

  /** A table: its rows in insertion order and the next identifier to
      hand out (identifiers are never reused). */
  datatype Table<T> = Table(rows: seq<Row<T>>, nextId: int)

  predicate HasId<T>(rows: seq<Row<T>>, id: int) {
    exists i :: 0 <= i < |rows| && rows[i].id == id
  }

  predicate UniqueIds<T>(rows: seq<Row<T>>) {
    forall i, j :: 0 <= i < j < |rows| ==> rows[i].id != rows[j].id
  }

  /** Identifiers are positive, below `nextId`, and distinct. */
  predicate WellFormed<T>(t: Table<T>) {
    && t.nextId >= 1
    && (forall i :: 0 <= i < |t.rows| ==> 1 <= t.rows[i].id < t.nextId)
    && UniqueIds(t.rows)
  }

  /** No stored record was rewritten: every row of `after` whose
      identifier `before` already held is a row of `before`. */
  ghost predicate Keeps<T>(before: Table<T>, after: Table<T>) {
    forall i :: 0 <= i < |after.rows| && HasId(before.rows, after.rows[i].id) ==> after.rows[i] in before.rows
  }

  /** `create`: the new row takes the next identifier and goes last. */
  function Insert<T>(t: Table<T>, now: Timestamp, fields: T): (r: (Table<T>, Row<T>))
    ensures r.1 == Row(t.nextId, now, fields)
    ensures r.0.rows == t.rows + [r.1]
    ensures WellFormed(t) ==> WellFormed(r.0) && !HasId(t.rows, r.1.id) && Keeps(t, r.0)
  {
    var row := Row(t.nextId, now, fields);
    (Table(t.rows + [row], t.nextId + 1), row)
  }

  /** The rows whose identifier is not `id`, in their order. */
  function Without<T>(rows: seq<Row<T>>, id: int): (r: seq<Row<T>>)
    ensures Seqs.IsSubsequence(r, rows)
    ensures forall i :: 0 <= i < |r| ==> r[i] in rows && r[i].id != id
    ensures forall i :: 0 <= i < |rows| && rows[i].id != id ==> rows[i] in r
    ensures !HasId(rows, id) ==> r == rows
    ensures UniqueIds(rows) && HasId(rows, id) ==> |r| == |rows| - 1
    decreases |rows|
  {
    Seqs.FilterIsSubsequence(rows, (row: Row<T>) => row.id != id);
    WithoutCount(rows, id);
    Seqs.Filter(rows, (row: Row<T>) => row.id != id)
  }

  lemma {:induction false} WithoutCount<T>(rows: seq<Row<T>>, id: int)
    ensures !HasId(rows, id) ==> Seqs.Filter(rows, (row: Row<T>) => row.id != id) == rows
    ensures UniqueIds(rows) && HasId(rows, id) ==>
      |Seqs.Filter(rows, (row: Row<T>) => row.id != id)| == |rows| - 1
    decreases |rows|
  {
    if |rows| > 0 {
      var rest := rows[1..];
      WithoutCount(rest, id);
      if !HasId(rows, id) {
        forall i | 0 <= i < |rest| ensures rest[i].id != id {
          assert rest[i] == rows[i + 1];
        }
      }
      if UniqueIds(rows) && HasId(rows, id) {
        assert UniqueIds(rest) by {
          forall i, j | 0 <= i < j < |rest|
            ensures rest[i].id != rest[j].id
          {
            assert rest[i] == rows[i + 1] && rest[j] == rows[j + 1];
          }
        }
        if rows[0].id == id {
          forall i | 0 <= i < |rest| ensures rest[i].id != id {
            assert rest[i] == rows[i + 1];
          }
        } else {
          var i :| 0 <= i < |rows| && rows[i].id == id;
          assert rest[i - 1].id == id;
        }
      }
    }
  }

  /** Why the store refuses a write: no row has the identifier, the
      identifier did not parse, a unique column already holds the value, or
      a date column was given an invalid date. */
  datatype StoreError = NotFound | InvalidId | Conflict | InvalidDate

  /** `delete({ where: { id } })`: a missing identifier fails; otherwise
      exactly the row with that identifier goes and the rest keep their
      order. */
  function Delete<T>(t: Table<T>, id: int): (r: Result<Table<T>, StoreError>)
    ensures r.Err? <==> !HasId(t.rows, id)
    ensures r.Err? ==> r.error == NotFound
    ensures r.Ok? ==> r.value.nextId == t.nextId
    ensures r.Ok? ==> Seqs.IsSubsequence(r.value.rows, t.rows)
    ensures r.Ok? ==> forall i :: 0 <= i < |r.value.rows| ==> r.value.rows[i].id != id
    ensures r.Ok? ==> forall i :: 0 <= i < |t.rows| && t.rows[i].id != id ==> t.rows[i] in r.value.rows
    ensures r.Ok? && UniqueIds(t.rows) ==> |r.value.rows| == |t.rows| - 1
    ensures r.Ok? && WellFormed(t) ==> WellFormed(r.value)
    ensures r.Ok? ==> Keeps(t, r.value)
  {
    if !HasId(t.rows, id) then Err(NotFound)
    else
      var rows := Without(t.rows, id);
      assert UniqueIds(t.rows) ==> UniqueIds(rows) by {
        if UniqueIds(t.rows) {
          forall i, j | 0 <= i < j < |rows|
            ensures rows[i].id != rows[j].id
          {
            var idx :| Seqs.Embeds(idx, rows, t.rows);
            assert rows[i] == t.rows[idx[i]] && rows[j] == t.rows[idx[j]];
          }
        }
      }
      Ok(Table(rows, t.nextId))
  }

  /** Newest first: creation times never increase along the sequence. */
  predicate NewestFirst<T>(s: seq<Row<T>>) {
    forall i, j :: 0 <= i < j < |s| ==> s[i].createdAt >= s[j].createdAt
  }

  function InsertByTime<T>(x: Row<T>, s: seq<Row<T>>): (r: seq<Row<T>>)
    requires NewestFirst(s)
    ensures NewestFirst(r)
    ensures multiset(r) == multiset(s) + multiset{x}
    ensures |r| == |s| + 1
    ensures forall i :: 0 <= i < |r| ==> r[i] == x || r[i] in s
    decreases |s|
  {
    if |s| == 0 || x.createdAt >= s[0].createdAt then [x] + s
    else
      var rest := InsertByTime(x, s[1..]);
      assert s == [s[0]] + s[1..];
      NewerThanAll(s[0], x, s[1..], rest);
      [s[0]] + rest
  }

  /** A row newer than `x` and than every row of `s` is newer than every
      row of a sequence made of `x` and rows of `s`. */
  lemma NewerThanAll<T>(y: Row<T>, x: Row<T>, s: seq<Row<T>>, rest: seq<Row<T>>)
    requires y.createdAt >= x.createdAt
    requires forall i :: 0 <= i < |s| ==> y.createdAt >= s[i].createdAt
    requires forall i :: 0 <= i < |rest| ==> rest[i] == x || rest[i] in s
    requires NewestFirst(rest)
    ensures NewestFirst([y] + rest)
  {
  }

  /** `orderBy: { createdAt: 'desc' }`: the same rows, newest first (rows
      created at the same instant come in no promised order). */
  function ByNewest<T>(s: seq<Row<T>>): (r: seq<Row<T>>)
    ensures NewestFirst(r)
    ensures multiset(r) == multiset(s)
    ensures |r| == |s|
    decreases |s|
  {
    if |s| == 0 then []
    else
      assert s == [s[0]] + s[1..];
      InsertByTime(s[0], ByNewest(s[1..]))
  }

  /** A row strictly newer than all others comes first. */
  lemma NewestComesFirst<T>(s: seq<Row<T>>, x: Row<T>)
    requires forall i :: 0 <= i < |s| ==> s[i].createdAt < x.createdAt
    ensures ByNewest(s + [x])[0] == x
  {
    var r := ByNewest(s + [x]);
    assert x in multiset(s + [x]);
    assert r[0] in multiset(s + [x]);
  }

  /** How many activities `GET /activities` returns. */
  const ActivityLimit := 10

  /** `findMany({ orderBy: { createdAt: 'desc' }, take: 10 })`: at most ten
      activities, newest first, and none left out is newer than one
      returned. */
  function Recent(acts: seq<Activity>): (r: seq<Activity>)
    ensures |r| == if |acts| < ActivityLimit then |acts| else ActivityLimit
    ensures NewestFirst(r)
    ensures forall i :: 0 <= i < |r| ==> r[i] in acts
    ensures multiset(r) <= multiset(acts)
    ensures forall a, i :: a in acts && a !in r && 0 <= i < |r| ==> a.createdAt <= r[i].createdAt
  {
    var sorted := ByNewest(acts);
    var r := if |sorted| < ActivityLimit then sorted else sorted[..ActivityLimit];
    PrefixOfOrdered(acts, sorted, r);
    r
  }

  /** A prefix of an ordering of `s` holds rows of `s`, and every row of
      `s` it leaves out is no newer than any it keeps. */
  lemma PrefixOfOrdered<T>(s: seq<Row<T>>, sorted: seq<Row<T>>, r: seq<Row<T>>)
    requires NewestFirst(sorted) && multiset(sorted) == multiset(s)
    requires |r| <= |sorted| && r == sorted[..|r|]
    ensures NewestFirst(r)
    ensures forall i :: 0 <= i < |r| ==> r[i] in s
    ensures multiset(r) <= multiset(s)
    ensures forall a, i :: a in s && a !in r && 0 <= i < |r| ==> a.createdAt <= r[i].createdAt
  {
    assert sorted == r + sorted[|r|..];
    forall i | 0 <= i < |r| ensures r[i] in s {
      assert r[i] == sorted[i];
      assert sorted[i] in multiset(sorted);
    }
    forall a, i | a in s && a !in r && 0 <= i < |r|
      ensures a.createdAt <= r[i].createdAt
    {
      assert a in multiset(sorted);
      var j :| 0 <= j < |sorted| && sorted[j] == a;
    }
  }
}

=== FILE: text.dfy ===
/** The string operations the views rely on: `toLowerCase` (ASCII letters
    only), `includes`, `trim`, and `split(sep)[0]`. */
module Text {

  predicate IsUpper(c: char) {
    'A' <= c <= 'Z'
  }

  function LowerChar(c: char): char {
    if IsUpper(c) then (c as int + 32) as char else c
  }

  /** ASCII lower-casing: each upper-case letter is replaced by its
      lower-case partner, every other character is kept. */
  function Lower(s: string): (r: string)
    ensures |r| == |s|
    ensures forall i :: 0 <= i < |s| ==> !IsUpper(r[i])
    ensures forall i :: 0 <= i < |s| && !IsUpper(s[i]) ==> r[i] == s[i]
    ensures forall i :: 0 <= i < |s| ==> r[i] == LowerChar(s[i])
  {
    seq(|s|, i requires 0 <= i < |s| => LowerChar(s[i]))
  }

  /** Lower-casing twice is lower-casing once, so searching for an already
      lower-cased text is the same as searching for the original. */
  lemma LowerIdempotent(s: string)
    ensures Lower(Lower(s)) == Lower(s)
  {
  }

  predicate StartsWith(s: string, prefix: string) {
    |prefix| <= |s| && s[..|prefix|] == prefix
  }

  /** `hay.includes(needle)`: `needle` occurs somewhere in `hay`. Every text
      includes the empty text, so an empty search matches every present
      field, and nothing longer than `hay` occurs in it. */
  predicate Contains(hay: string, needle: string): (r: bool)
    ensures |needle| == 0 ==> r
    ensures r ==> |needle| <= |hay|
    decreases |hay|
  {
    StartsWith(hay, needle) || (|hay| > 0 && Contains(hay[1..], needle))
  }

  /** `needle` sits in `hay` starting at position `i`. */
  predicate OccursAt(hay: string, needle: string, i: int) {
    0 <= i <= |hay| - |needle| && hay[i..i + |needle|] == needle
  }

  /** `includes` is true exactly when `needle` sits at some position of `hay`. */
  lemma {:induction false} ContainsIffOccurs(hay: string, needle: string)
    ensures Contains(hay, needle) <==> exists i :: OccursAt(hay, needle, i)
    decreases |hay|
  {
    if StartsWith(hay, needle) {
      assert OccursAt(hay, needle, 0);
    } else if |hay| > 0 {
      ContainsIffOccurs(hay[1..], needle);
      if Contains(hay[1..], needle) {
        var i :| OccursAt(hay[1..], needle, i);
        assert OccursAt(hay, needle, i + 1);
      }
      if exists i :: OccursAt(hay, needle, i) {
        var i :| OccursAt(hay, needle, i);
        assert i != 0;
        assert OccursAt(hay[1..], needle, i - 1);
      }
    }
  }

  /** The characters `String.prototype.trim` removes: white space and line
      terminators (tab, vertical tab, form feed, space, no-break space,
      byte-order mark, the Unicode space separators, LF, CR, LS, PS). */
  predicate IsSpace(c: char) {
    var n := c as int;
    || n == 0x09 || n == 0x0B || n == 0x0C || n == 0x20 || n == 0xA0 || n == 0xFEFF
    || n == 0x1680 || (0x2000 <= n <= 0x200A) || n == 0x202F || n == 0x205F || n == 0x3000
    || n == 0x0A || n == 0x0D || n == 0x2028 || n == 0x2029
  }

  /** `s` with its leading white space removed. */
  function TrimStart(s: string): (r: string)
    ensures |r| <= |s| && r == s[|s| - |r|..]
    ensures forall i :: 0 <= i < |s| - |r| ==> IsSpace(s[i])
    ensures r == [] || !IsSpace(r[0])
    decreases |s|
  {
    if |s| > 0 && IsSpace(s[0]) then TrimStart(s[1..]) else s
  }

  /** `s` with its trailing white space removed. */
  function TrimEnd(s: string): (r: string)
    ensures |r| <= |s| && r == s[..|r|]
    ensures forall i :: |r| <= i < |s| ==> IsSpace(s[i])
    ensures r == [] || !IsSpace(r[|r| - 1])
    decreases |s|
  {
    if |s| > 0 && IsSpace(s[|s| - 1]) then TrimEnd(s[..|s| - 1]) else s
  }

  function Trim(s: string): string {
    TrimEnd(TrimStart(s))
  }

  /** `!s.trim()`: the text is empty once trimmed. */
  predicate IsBlank(s: string) {
    Trim(s) == []
  }

  /** A text is blank exactly when every character of it is white space. */
  lemma BlankIffAllSpace(s: string)
    ensures IsBlank(s) <==> forall i :: 0 <= i < |s| ==> IsSpace(s[i])
  {
  }

  /** `s.split(sep)[0]`: the text before the first `sep`, or all of `s`
      when it has none. */
  function PrefixBefore(s: string, sep: char): (r: string)
    ensures |r| <= |s| && r == s[..|r|]
    ensures sep !in r
    ensures |r| < |s| ==> s[|r|] == sep
    decreases |s|
  {
    if |s| == 0 || s[0] == sep then [] else [s[0]] + PrefixBefore(s[1..], sep)
  }

  /** Splitting `head + [sep] + tail` at its first `sep` gives back `head`
      when `head` holds no `sep`. */
  lemma {:induction false} PrefixBeforeJoin(head: string, sep: char, tail: string)
    requires sep !in head
    ensures PrefixBefore(head + [sep] + tail, sep) == head
    decreases |head|
  {
    var s := head + [sep] + tail;
    if |head| > 0 {
      assert s[1..] == head[1..] + [sep] + tail;
      PrefixBeforeJoin(head[1..], sep, tail);
    }
  }
}

=== FILE: views.dfy ===
/** What the five list views share: the values a form field can hold, the
    view state (form, `editingId`, `showForm`), the submit flow after its
    guard, cancel, edit, and loading a collection. */
module Views {
  import opened Wrappers
  import Text

  /** `x?.toLowerCase().includes(search.toLowerCase())`: the field is
      present and contains the search text, ignoring ASCII case. */
  predicate FieldHas(x: Option<string>, search: string) {
    x.Some? && Text.Contains(Text.Lower(x.value), Text.Lower(search))
  }

  /** Lower-casing a slice is the slice of the lower-cased text. */
  lemma LowerSlice(t: string, i: int, j: int)
    requires 0 <= i <= j <= |t|
    ensures Text.Lower(t)[i..j] == Text.Lower(t[i..j])
  {
  }

  /** A field that contains the search text verbatim matches it. */
  lemma VerbatimOccurrenceMatches(t: string, search: string, i: int)
    requires Text.OccursAt(t, search, i)
    ensures FieldHas(Some(t), search)
  {
    LowerSlice(t, i, i + |search|);
    assert Text.OccursAt(Text.Lower(t), Text.Lower(search), i);
    Text.ContainsIffOccurs(Text.Lower(t), Text.Lower(search));
  }

  /** Two searches that agree once lower-cased match the same fields. */
  lemma SearchIgnoresCase(x: Option<string>, a: string, b: string)
    requires Text.Lower(a) == Text.Lower(b)
    ensures FieldHas(x, a) == FieldHas(x, b)
  {
  }

  /** The empty search matches every present field and no absent one. */
  lemma EmptySearchMatchesPresent(x: Option<string>)
    ensures FieldHas(x, "") <==> x.Some?
  {
  }

  /** A form field: the text typed into an input, or a raw record value
      copied in by an edit (a number or null). */
  datatype FormValue = Str(s: string) | Number(n: real) | Null

  /** JavaScript truthiness of a form field. */
  predicate Truthy(v: FormValue) {
    match v
    case Str(s) => s != ""
    case Number(n) => n != 0.0
    case Null => false
  }

  /** Copies a record's text field into a form unchanged (null stays null). */
  function FromText(x: Option<string>): (r: FormValue)
    ensures x.Some? <==> r.Str?
    ensures x.Some? ==> r.s == x.value
  {
    if x.Some? then Str(x.value) else Null
  }

  /** Copies a record's numeric field into a form unchanged. */
  function FromNumber(x: Option<real>): (r: FormValue)
    ensures x.Some? <==> r.Number?
    ensures x.Some? ==> r.n == x.value
  {
    if x.Some? then Number(x.value) else Null
  }

  /** `x || ''`: a falsy field becomes the empty text. */
  function OrEmpty(v: FormValue): (r: FormValue)
    ensures Truthy(v) ==> r == v
    ensures !Truthy(v) ==> r == Str("")
    ensures r != Null
  {
    if Truthy(v) then v else Str("")
  }

  /** The outcome of a submit guard: go on, refuse with an alert, or throw a
      TypeError (calling `trim` on a value that is not a text). */
  datatype Check = Pass | Refuse(message: string) | Throw

  /** `if (!v.trim()) return alert(message)`. */
  function RequireText(v: FormValue, message: string): (c: Check)
    ensures c.Pass? <==> v.Str? && exists i :: 0 <= i < |v.s| && !Text.IsSpace(v.s[i])
    ensures c.Throw? <==> !v.Str?
    ensures c.Refuse? ==> c.message == message
  {
    if !v.Str? then Throw
    else
      Text.BlankIffAllSpace(v.s);
      if Text.IsBlank(v.s) then Refuse(message) else Pass
  }

  /** `if (!v) return alert(message)`. */
  function RequireTruthy(v: FormValue, message: string): (c: Check)
    ensures c.Pass? <==> Truthy(v)
    ensures !c.Throw?
    ensures c.Refuse? ==> c.message == message
  {
    if Truthy(v) then Pass else Refuse(message)
  }

  datatype View<F> = View(form: F, editingId: Option<int>, showForm: bool)

  /** `if (editingId)`: an identifier is being edited; 0 and null are falsy. */
  predicate Editing<F>(v: View<F>) {
    v.editingId.Some? && v.editingId.value != 0
  }

  /** The request a submit sends: POST of the form, or PUT of the form to
      the edited identifier. */
  datatype Request<F> = Post(body: F) | Put(id: int, body: F)

  /** What `fetch` yields: an HTTP response, or a rejected promise. */
  datatype Reply = Response(status: int) | NetworkFailure

  predicate IsOk(reply: Reply) {
    reply.Response? && 200 <= reply.status <= 299
  }

  /** The state after a submit, the request it sent if any, the alert it
      raised if any, and whether it re-fetched the list. */
  datatype Submitted<F> = Submitted(view: View<F>, request: Option<Request<F>>, alert: Option<string>, reload: bool)

  function RequestFor<F>(v: View<F>): (q: Request<F>)
    ensures q.Put? <==> Editing(v)
    ensures q.body == v.form
    ensures q.Put? ==> v.editingId == Some(q.id)
  {
    if Editing(v) then Put(v.editingId.value, v.form) else Post(v.form)
  }

  /** A save fails when `fetch` rejects, or, for a view that tests `res.ok`,
      when the status is not 2xx. */
  predicate SaveFails(reply: Reply, checksStatus: bool) {
    reply.NetworkFailure? || (checksStatus && !IsOk(reply))
  }

  /** The part of `handleSubmit` after its guard: send, then on success
      clear `editingId` (update only), reset the form, hide it and reload; on
      failure leave the view as it was and raise `failureAlert` (none for a
      view without a `catch`). */
  function Save<F>(v: View<F>, reply: Reply, checksStatus: bool, blank: F, failureAlert: Option<string>): (r: Submitted<F>)
    ensures r.request == Some(RequestFor(v))
    ensures SaveFails(reply, checksStatus) ==> r.view == v && r.alert == failureAlert && !r.reload
    ensures !SaveFails(reply, checksStatus) ==>
      r.view.form == blank && !r.view.showForm && !Editing(r.view) && r.alert.None? && r.reload
    ensures !SaveFails(reply, checksStatus) && Editing(v) ==> r.view.editingId.None?
    ensures !SaveFails(reply, checksStatus) && !Editing(v) ==> r.view.editingId == v.editingId
  {
    var request := RequestFor(v);
    if SaveFails(reply, checksStatus) then Submitted(v, Some(request), failureAlert, false)
    else
      var id := if Editing(v) then None else v.editingId;
      Submitted(View(blank, id, false), Some(request), None, true)
  }

  /** A submit stopped by its guard: nothing is sent and the view is kept;
      a refusal raises its alert, a TypeError raises nothing. */
  function Stopped<F>(v: View<F>, check: Check): (r: Submitted<F>)
    requires !check.Pass?
    ensures r.view == v && r.request.None? && !r.reload
    ensures r.alert.Some? <==> check.Refuse?
    ensures check.Refuse? ==> r.alert == Some(check.message)
  {
    if check.Refuse? then Submitted(v, None, Some(check.message), false)
    else Submitted(v, None, None, false)
  }

  /** `handleCancel`: hide the form, clear `editingId`, reset the form. */
  function Cancel<F>(v: View<F>, blank: F): (r: View<F>)
    ensures r.form == blank && r.editingId.None? && !r.showForm
  {
    View(blank, None, false)
  }

  /** `handleEdit`: load the record into the form, remember its identifier,
      show the form. */
  function Edit<F>(v: View<F>, form: F, id: int): (r: View<F>)
    ensures r.form == form && r.editingId == Some(id) && r.showForm
  {
    View(form, Some(id), true)
  }

  /** Cancelling after an edit lands exactly where cancelling without it
      does: the edit leaves no trace. */
  lemma CancelUndoesEdit<F>(v: View<F>, form: F, id: int, blank: F)
    ensures Cancel(Edit(v, form, id), blank) == Cancel(v, blank)
  {
  }

  /** A successful update leaves the view as Cancel would. */
  lemma SavedUpdateIsCancel<F>(v: View<F>, reply: Reply, checksStatus: bool, blank: F, failureAlert: Option<string>)
    requires Editing(v) && !SaveFails(reply, checksStatus)
    ensures Save(v, reply, checksStatus, blank, failureAlert).view == Cancel(v, blank)
  {
  }

  /** What the fetch of a list yields: a JSON array, some other JSON value,
      or a rejected promise. */
  datatype Fetch<T> = Fetched(data: seq<T>) | NotAList | Offline

  /** A view's copy of its collection, with the error banner text if any. */
  datatype Loaded<T> = Loaded(items: seq<T>, error: Option<string>)

  const ConnectionError := "Could not connect to the server. Make sure your backend is running."

  /** `fetchX`: keep an array as it is, replace anything else by an empty
      list, and on a rejected fetch also show the connection banner. */
  function Load<T>(f: Fetch<T>): (r: Loaded<T>)
    ensures f.Fetched? ==> r.items == f.data && r.error.None?
    ensures !f.Fetched? ==> r.items == []
    ensures r.error.Some? <==> f.Offline?
    ensures f.Offline? ==> r.error == Some(ConnectionError)
  {
    match f
    case Fetched(data) => Loaded(data, None)
    case NotAList => Loaded([], None)
    case Offline => Loaded([], Some(ConnectionError))
  }
}

=== FILE: wrappers.dfy ===
/** Option and Result, the two failure-carrying shapes the model needs:
    `Option` stands for a JSON value that may be null, `Result` for a
    server operation that may fail. */
module Wrappers {

  datatype Option<+T> = None | Some(value: T) {

    /** The wrapped value, or `default` when there is none. */
    function GetOr(default: T): T {
      match this
      case Some(v) => v
      case None => default
    }
  }

  datatype Result<+T, +E> = Ok(value: T) | Err(error: E)
}
